=== FILE: README.md ===
# Warpmetrics MCP server: catalog, request and rendering model

The Warpmetrics MCP server is a read-only bridge between an MCP client and
the Warpmetrics REST API. At start-up it translates the API's OpenAPI
document into a tool catalog: one tool per `get` operation with an
`operationId`, plus a path map from tool name to path template and
parameters. On `tools/call` it looks the tool up and fills the template:
path parameters are `encodeURIComponent`-encoded in place of their
`{name}` placeholder, and query parameters go through `URLSearchParams`.
It then fetches the URL and checks the `{success, data, error}` envelope.
The data is rendered as text: numbers are formatted by field name, arrays
become bullet lists and objects become indented key-value lines. Every
error thrown on the way becomes an `Error: <message>` reply.

The Dafny modules follow that structure:

- `Wrappers`: `Option` and `Result`.
- `Text`: the JavaScript string operations used (`trim`, `replace` with a
  string pattern, `join`, `split`, `repeat`, line indentation, integer
  text).
- `KeyedList`: insertion-ordered keyed lists. A plain object uses them for
  property writes, and `URLSearchParams` for `set`.
- `Json`: parsed JSON values. The module also holds the JavaScript
  operations applied to them: truthiness, `typeof`, property reads,
  `Object.entries`, `String(...)`, the names inherited from
  `Object.prototype`, and V8's TypeError messages.
- `UrlEncoding`: `encodeURIComponent` and the `URLSearchParams` serializer.
  Each comes with a decoder to check it against: percent-decoding with
  strict UTF-8, and the form-urlencoded parser.
- `OpenApi`: `generateToolsFromOpenAPI`.
- `Executor`: URL construction and envelope classification of
  `executeAPICall`.
- `Render`: `fmtValue`, `formatArray`, `formatObject` and `formatResponse`.
- `Handler`: the `tools/call` handler.

Three things the server reads from its environment become parameters of
the model:

- `BASE_URL` is the `base` argument.
- The network is a function from the requested URL to what came back.
- The runtime's number-to-text conversions form a `NumberText` record:
  `String(n)`, `toFixed` and `toLocaleString`.

## Model

| member | source | states |
|---|---|---|
| OpenApi.CatalogIsExposedTriples | src/index.js:97-145 | The tools are exactly the `get` operations with a truthy `operationId`, in document order, one per operation. The path map has an entry for exactly their ids, and a repeated id maps to the path and parameters of its last operation. |
| OpenApi.WalkTools | src/index.js:101-107 | The tool list is the tools of the exposed (path, method, operation) triples, one per triple, in the order of the nested loops. |
| OpenApi.ExposedOnly | src/index.js:103-107 | The filter keeps a triple exactly when it is a `get` with a truthy `operationId`. |
| OpenApi.ExposedOnlyAppend | src/index.js:101-107 | The filter keeps document order: the exposed triples of two consecutive runs are those of the first run followed by those of the second. |
| OpenApi.ExposedOnlyOne | src/index.js:103-107 | A single triple is kept exactly when it is exposed. |
| OpenApi.EndpointsMembers | src/index.js:101-102 | A (path, method, operation) triple is visited exactly when the path is a key of `spec.paths` and (method, operation) is one of that path's entries. |
| OpenApi.EndpointsAppend | src/index.js:101-102 | The outer loop visits paths in order: the triples of two consecutive groups of paths are those of the first group followed by those of the second. |
| OpenApi.EndpointsOfPath | src/index.js:102 | The inner loop visits one path's (method, operation) entries in entry order, each paired with that path. |
| OpenApi.WalkPathMap | src/index.js:137-140 | The path map the loop builds depends only on the exposed triples and not on the tool list. |
| OpenApi.PathMapKeys | src/index.js:137-140 | A name has a path-map entry exactly when some exposed triple carries it as `operationId`. |
| OpenApi.PathMapEntries | src/index.js:137-140 | The entry of an id is the path and the parameters (`[]` when absent) of the last exposed triple with that id. |
| OpenApi.ToolNames | src/index.js:127-128 | Tool `k` is named after the `operationId` of the `k`-th exposed triple. |
| OpenApi.OnlyGetOperationsExposed | src/index.js:106-107 | Every tool names a `get` operation of the document, and the tool names and the path-map keys are the same names. |
| OpenApi.ToolsFromExposed | src/index.js:127-140 | Every tool comes from an exposed `get` operation and has a path-map entry. |
| OpenApi.RoutesHaveTools | src/index.js:127-140 | Every path-map entry has a tool of the same name. |
| OpenApi.PropertyFor | src/index.js:115-120 | The property's type is `schema.type` when that is present and non-empty, and `"string"` otherwise, so it is never empty. The description is the parameter's own, and the enum and default are those of its schema (absent without a schema). |
| OpenApi.PropertiesKeys | src/index.js:114-120 | The property names are the declared parameter names, each once, in order of first declaration. |
| OpenApi.PropertiesLastWins | src/index.js:115 | A repeated parameter name keeps the property built from its last declaration. |
| OpenApi.SchemaProperties | src/index.js:109-132 | The input schema has one property per declared name, in first-declaration order, each built from the name's last declaration. |
| OpenApi.SchemaRequired | src/index.js:121-123 | A name is in `required` exactly when some parameter of that name is required. The list is absent rather than empty when nothing is required (line 133). |
| OpenApi.RequiredMembers | src/index.js:121-123 | A name is in the required list exactly when some parameter of that name is required. |
| OpenApi.RequiredNamesAppend | src/index.js:114-123 | The required list keeps declaration order and repetitions: the list for two consecutive groups of parameters is the first group's list followed by the second's. |
| OpenApi.RequiredNamesOne | src/index.js:121-123 | A single parameter contributes its name exactly when it is required. |
| OpenApi.DuplicateParameterName | src/index.js:114-123 | Two required parameters with the same name give one property (from the second) and list the name twice in `required`. |
| OpenApi.DescriptionFor | src/index.js:129 | The tool description neither starts nor ends with JavaScript white space. |
| OpenApi.DescriptionWithoutDetail | src/index.js:129 | When the summary is present and does not start with white space, and the description is absent or empty, the tool description is the summary followed by a full stop. |
| OpenApi.DescriptionVerbatim | src/index.js:129 | When the summary and the description have no outer white space, the tool description is `summary. description` verbatim. |
| Text.Trim | src/index.js:129 | The result of `trim` neither starts nor ends with a white-space or line-terminator code point. |
| Text.TrimOfPadded | src/index.js:129 | `trim` of any white-space padding around an unpadded core returns exactly that core. |
| Text.TrimRemovesPadding | src/index.js:129 | The result of `trim` is the slice of the input that starts at the first non-white-space character. Only white space comes before it and after it. |
| Text.TrimStartOfPadded | src/index.js:129 | Removing leading white space from white space followed by a non-white-space start gives that rest. |
| Text.TrimEndOfPadded | src/index.js:129 | Removing trailing white space from text ending in non-white space, followed by white space, gives that text. |
| Text.IndexOfFrom | src/index.js:162 | The result is the first position at or after `from` where the pattern occurs; `None` when it occurs nowhere from there. |
| Text.ReplaceFirst | src/index.js:162 | `replace` with a string pattern replaces only the first occurrence and leaves the string unchanged when the pattern does not occur. |
| Text.Split | src/index.js:243 | `split` gives at least one piece, and no piece holds the separator. |
| Text.JoinSplit | src/index.js:243 | Joining the pieces of a split with the same separator gives the string back. |
| Text.SplitJoin | src/index.js:243 | Splitting a join of separator-free pieces gives the pieces back. |
| Text.IndentInsertsPrefix | src/index.js:243 | Prefixing every line means inserting the prefix at the start and after every line feed, with nothing else changed. |
| Text.Repeat | src/index.js:236 | `"  ".repeat(n)` has length `2n` and holds only spaces. |
| Text.NatToString | src/index.js:184 | A status interpolates as decimal digits with no leading zero that denote the number. |
| KeyedList.Lookup | src/index.js:187 | A property read finds nothing exactly when no entry has that key. |
| KeyedList.Assign | src/index.js:115 | A property write keeps an existing key in place and appends a new one. The written key reads the new value, and every other key reads as before. |
| KeyedList.SetParam | src/index.js:164 | `URLSearchParams.set`: afterwards the name reads the value and other names read as before. On a list of distinct names it is the property write. |
| KeyedList.RemoveKey | src/index.js:164 | Removing every pair with a name leaves no pair of that name, and the other names read as before. |
| KeyedList.AssignSame | src/index.js:164 | Setting a name to the value it already holds changes nothing. |
| KeyedList.AssignNew | src/index.js:164 | Setting a name the list does not hold appends the pair at the end. |
| UrlEncoding.EncodeURIComponent | src/index.js:162 | The encoding holds only unreserved characters and `%`, and it leaves a string of unreserved characters unchanged. |
| UrlEncoding.DecodeEncodeURIComponent | src/index.js:162 | Percent-decoding the encoding gives the input's UTF-8 bytes. |
| UrlEncoding.ComponentRoundTrip | src/index.js:162 | Percent-decoding and then strictly UTF-8-decoding the encoding gives back the input: a path value reaches the server intact. |
| UrlEncoding.Utf8RoundTrip | src/index.js:162 | Strict UTF-8 decoding of a string's UTF-8 bytes gives back the string. |
| UrlEncoding.DecodeFirstOfUtf8 | src/index.js:162 | The decoder reads back one encoded code point and consumes exactly its bytes. |
| UrlEncoding.FormRoundTrip | src/index.js:164-168 | The form encoding of a name or value decodes back to it. |
| UrlEncoding.SerializeQueryEmpty | src/index.js:168-171 | The query string is empty exactly when there are no search parameters. |
| UrlEncoding.QueryRoundTrip | src/index.js:164-171 | Parsing the serialized query gives back the name-value list, in order. |
| Executor.QueryOfParameters | src/index.js:155-166 | The loop leaves exactly one search parameter per name of a `query` parameter whose argument is not `undefined`. Names are in order of first declaration, each with the text of its argument. |
| Executor.QueryLoopStep | src/index.js:157-165 | One loop iteration keeps the search parameters in the expected form. |
| Executor.QueryNames | src/index.js:157-165 | A name is collected exactly when some `query` parameter of that name has an argument, and every collected name has one. |
| Executor.InheritedArgumentIsSent | src/index.js:158-164 | A `query` parameter named `constructor` is sent without an own argument of that name, with the text of the `Object` function. |
| Executor.ApplyAllAppend | src/index.js:157-166 | The loop over two parameter lists in a row is the loop over the first, then over the second. |
| Executor.IgnoredParameterRemovable | src/index.js:158-165 | A parameter without an argument, or located neither in the path nor in the query, can be removed without changing the request. |
| Executor.UrlWithoutPathArguments | src/index.js:154-162 | With no argument for any `path` parameter, the URL is the template as it stands. |
| Executor.PathSubstitution | src/index.js:161-162 | A `path` parameter replaces the first occurrence of its placeholder with the encoded argument. The rest of the URL, later occurrences included, is untouched, and so are the search parameters. |
| Executor.PathWithoutPlaceholder | src/index.js:161-162 | A `path` parameter whose placeholder does not occur changes nothing. |
| Executor.EncodedHasNoDollar | src/index.js:162 | An encoded value holds no `$`, so `replace` inserts it literally. |
| Executor.RequestUrlShape | src/index.js:154-171 | The fetched URL is the filled template alone when no search parameter is set. Otherwise it is the filled template, `?`, and a query that parses back to exactly the expected search parameters. |
| Executor.RunParametersAgrees | src/index.js:157-166 | The parameter loop throws exactly when a `path` or `query` parameter has an own argument that does not convert to a string, and then with V8's `Cannot convert object to primitive value`. Otherwise it builds the draft of the non-throwing loop. |
| Executor.BuildUrl | src/index.js:153-171 | A URL is built exactly when every argument the loop converts converts, and it is then the request URL. Otherwise the call fails with the conversion TypeError. |
| Executor.ConversionFailureExample | src/index.js:164 | A query argument `{toString: 1}` makes the call fail before any URL is fetched. |
| Executor.QuestionMarkIffQueryArgument | src/index.js:168-171 | `?` is appended exactly when some `query` parameter has an argument. |
| Executor.ItemExample | src/index.js:154-171 | `/v1/items/{id}` with `id = "a b"` requests `<base>/v1/items/a%20b`. |
| Executor.Classify | src/index.js:180-191 | The outcome is a success exactly for a parsed body that is an object with a truthy `success`, and it is that body unchanged. |
| Executor.ClassifyUnparsable | src/index.js:180-185 | A body that is not JSON fails with `HTTP <status>: <statusText>`. |
| Executor.ClassifyUnsuccessful | src/index.js:187-189 | A parsed body that is not `null` and not a successful envelope (an object without a truthy `success`, or an array, string, number or boolean) fails with its truthy `error.message` when it has one. A message that does not convert fails with the conversion TypeError instead. Without a message the failure is `Request failed (<status>)`. |
| Executor.ClassifyNullBody | src/index.js:187 | A body that parses as `null` fails with V8's TypeError for reading `success` of null. |
| Executor.QuotaExample | src/index.js:187-189 | `{success: false, error: {message: "quota exceeded"}}` fails with `quota exceeded`. |
| Render.Search | src/index.js:197-199 | An unanchored case-insensitive alternation matches exactly when some alternative matches at some position. |
| Render.TestFindsInfix | src/index.js:197-199 | A word of the pattern is found anywhere in a key, whatever the case of its ASCII letters. |
| Render.FmtValue | src/index.js:202-209 | Null stays null, and only null gives null. A value that is not a number is returned as it is. A number becomes text or stays the same number. |
| Render.FmtValueByRules | src/index.js:202-209 | A number is formatted by the first rule of the ordered table (cost, duration, rate) that its key matches. With no match it is grouped above 9999 and otherwise kept. |
| Render.CostBeforeRate | src/index.js:204-206 | A key naming both a cost and a rate is formatted as a cost. |
| Render.KeptFields | src/index.js:220-223 | The detail keeps exactly the fields that are not `id`, not `projectId`, not null or `""`, and not objects or arrays. |
| Render.ItemPartsOfKept | src/index.js:220-227 | The detail parts are `key: value` for each kept field, in field order. |
| Render.ItemLineText | src/index.js:217-228 | An item's line starts with its `id` and a dash exactly when the `id` is present and truthy. The rest is the kept fields' `key: value` parts joined by ` \| `. |
| Render.ItemPartsDrop | src/index.js:220-226 | A field that is not kept can be removed without changing the detail. |
| Render.ItemPartsAllKept | src/index.js:220-226 | When every field is kept, there is one part per field, in order. |
| Render.ItemPartsAppend | src/index.js:220-226 | The parts of two field lists in a row are the parts of each, in order. |
| Render.FormatArray | src/index.js:214-230 | An empty array gives `No results.`. Rendering fails exactly when some item throws, and then with the error of the first item that does. In object mode an item throws when it is null (V8's message for reading `id` of null) or when its truthy `id` does not convert. In primitive mode an item throws when it does not convert. A null item in object mode always makes it fail. |
| Render.UnconvertibleItemExample | src/index.js:216 | `[1, {toString: 0}]` fails with the conversion TypeError instead of rendering `• [object Object]`. |
| Render.ArrayText | src/index.js:214-230 | A rendered array has one bullet line per item. A primitive line carries the item's text, and an object line is the item's line. Without line feeds inside the lines, splitting the text gives back the lines. |
| Render.ArrayLinesAreBullets | src/index.js:216-228 | Every line of a non-empty array starts with the bullet. |
| Render.BulletExample | src/index.js:214-230 | `[{id: "x1", cost: 2.5, note: null}]` renders as `• x1 — cost: $2.5000`. |
| Render.EntryLinesShape | src/index.js:238-251 | A field pushes no line exactly when its key is skipped, or its value is null or an empty array. Otherwise its first line is the prefix, the key and a colon. A non-empty array adds its list with the prefix and two spaces inserted before every line. An object adds its own text one level deeper. A scalar stays on the key's line as `key: value`. An error of the nested list or object is passed on. |
| Render.ObjectLinesAppend | src/index.js:237-253 | The lines of two field lists in a row are the lines of each, in order, with the first error winning. |
| Render.ObjectIgnoresSilentField | src/index.js:239-241 | A skipped, null or empty-array field can be removed without changing the text. |
| Render.EmptyStringKeptInObject | src/index.js:248-250 | An object field holding `""` gives the line `key: `, while an array item drops such a field. |
| Render.ObjectTextHead | src/index.js:242-250 | The first line of a non-empty object's text has the depth's prefix and holds a colon. |
| Render.ArrayTextIsNotNoData | src/index.js:214-230 | An array never renders as `No data.`. |
| Render.ObjectTextIsNotNoData | src/index.js:235-254 | An object never renders as `No data.`. |
| Render.NoDataExactly | src/index.js:259-264 | The text is `No data.` exactly when the envelope has no data or null data. |
| Handler.Outcome | src/index.js:173-191 | The request succeeds only with a successful envelope that came back for the URL. A failed fetch fails with the fetch's message. |
| Handler.Execute | src/index.js:291-299 | An error reply's text starts with `Error: `. An argument that does not convert gives `Error: Cannot convert object to primitive value`, and then nothing is fetched. |
| Handler.HandleCall | src/index.js:280-300 | A name the path map has neither as its own nor as an inherited property gets `Error: Unknown tool "<name>"`. A name inherited from `Object.prototype` fails in the parameter loop. Every error reply starts with `Error: `. |
| Handler.ReplyOrigin | src/index.js:291-299 | When an argument does not convert, the reply is the conversion error and nothing is fetched. Otherwise the reply is not an error exactly when the URL returned a successful envelope that renders, and its text is that rendering. An error reply then carries the request's failure message, the null-item TypeError or the conversion TypeError. |
| Handler.RenderFailures | src/index.js:259-264 | Rendering a response fails only with the TypeError of reading `id` of a null array item, or with the TypeError of converting a value that does not convert. |
| Handler.ObjectRenderFailures | src/index.js:235-254 | Rendering an object fails only with a nested array's error: a null item, or a value that does not convert. |
| Handler.OnlyTheToolUrlIsFetched | src/index.js:153-178 | The reply depends on the network only through the response for the tool's URL, and not at all when no URL is built. |
| Handler.MissingArgumentsAreEmpty | src/index.js:292 | Missing arguments behave as an empty arguments object. |
| Handler.CallsFollowTheCatalog | src/index.js:282-292 | On the translated catalog, every listed tool executes its route. An unlisted name is answered as unknown, except one inherited from `Object.prototype`, which fails with `parameters is not iterable`. |
| Handler.QuotaReply | src/index.js:295-298 | An unsuccessful envelope with message `quota exceeded` becomes the error reply `Error: quota exceeded`. |
| Handler.ItemReply | src/index.js:291-294 | A successful envelope with data `[{id: "x1", cost: 2.5, note: null}]` becomes the reply `• x1 — cost: $2.5000`. |

## Left out

- The MCP SDK server, its stdio transport, the `tools/list` handler and the server start-up (src/index.js:1-6, 271-278, 303-305) are not modelled. `tools/list` returns the catalog's tool list unchanged.
- The command-line flags, help text, `listTools`, `main`, and reading the environment (src/index.js:9-80, 266-269, 308-315) are not modelled. `BASE_URL` (line 12) is the parameter `base`.
- Fetching and parsing the OpenAPI document (src/index.js:85-92) is not modelled. This includes the `response.ok` error and the TypeError when `spec.paths` is missing. `OpenApi.Translate` takes `spec.paths` already parsed.
- Executor.Classify: the `fetch` call itself, its `GET` method and its `Authorization` header (src/index.js:173-178) are not modelled. The network is a parameter from URL to response, and the response body arrives already parsed (`None` when it is not JSON).
- Render.FmtValue: `toFixed`, `toLocaleString` and `String(number)` depend on binary floating point and the host locale. They are the unconstrained functions of `NumberText`, so the model fixes the branch and the surrounding text but not the digits.
- Executor.RequestUrl: a Dafny `string` holds Unicode scalar values. The URIError `encodeURIComponent` throws for a lone surrogate, which `JSON.parse` can produce from `"\ud800"` (src/index.js:162), is therefore not modelled.
- Render.FormatResponse: `Object.entries` of a string counts UTF-16 code units, but the model counts code points. A string with a character outside the Basic Multilingual Plane (src/index.js:263) gets one entry per character in the model and two half-character entries in JavaScript. A lone surrogate cannot be a Dafny `char`.
- Render.FormatArray: the same code-point reading of `Object.entries` applies to string items of an array whose first item is object-typed (src/index.js:220).
- OpenApi.PropertiesKeys: a JavaScript object lists array-index keys (`"0"`, `"42"`) first, in ascending order. Writing `properties["__proto__"]` sets the prototype instead of adding a key (src/index.js:115). The model appends every new name, so its key order is the JavaScript one only for other names.
- KeyedList.Assign: models a property write on an ordinary key. Writing an array-index key (`"0"`, `"42"`) places it among the other index keys in ascending order, ahead of all other keys, and writing `"__proto__"` sets the prototype instead of adding a key (src/index.js:115). The model appends every new key at the end.
- OpenApi.SchemaProperties: holds in JavaScript only for parameter names that are not array indices and not `__proto__`, for the reason on the line above.
- OpenApi.CatalogIsExposedTriples: an `operationId` of `__proto__` replaces the prototype of the JavaScript path map (src/index.js:137) instead of adding an entry. The model treats it as an ordinary entry.
- Json.Convertible: an object converts to a string unless it has an own `toString`. That holds for parsed JSON, whose members are never functions. The message `Cannot convert object to primitive value` is V8's text for the TypeError.
- Handler.HandleCall: the inherited names are those of a plain object in V8. The reply for one of them uses V8's TypeError text for iterating an `undefined` variable (`parameters is not iterable`).
- Executor.QueryOfParameters: the arguments object is treated as a plain object whose own properties are the given map. How the SDK builds that object, for instance from an own `__proto__` key, is not modelled.
- JSON objects are taken to have distinct field names, as `JSON.parse` produces them. Property reads return the first field of a name, and the `Json` type does not enforce distinctness.
- The `type: "object"` member that every tool's input schema carries (src/index.js:131) is a constant and is implied by the `InputSchema` type rather than stored.
- The OpenAPI document's fields are typed: `operationId`, `summary`, `description`, `in` and `schema.type` are strings when present, and `required` is a boolean. Truthiness of other JSON kinds in those places is not modelled.
- A parameter without a `name`, such as an unresolved `$ref` parameter, is represented by the name `"undefined"`. JavaScript uses that same text for `properties[undefined]`, `args[undefined]`, `queryParams.set(undefined, …)` and the placeholder `{undefined}` (src/index.js:115, 158-164). The exception is `required.push(undefined)` (line 122), which pushes the value `undefined` where the model pushes the string. `$ref` resolution is not modelled.
- scripts/build-cli.js is not part of this model.

=== FILE: executor.dfy ===
/** Request construction and envelope classification of `executeAPICall`
    (src/index.js:150-192). The network round trip itself is left out: the
    URL is what would be fetched, and the classifier takes the HTTP status,
    the status text and the parsed body (or `None` when the body is not
    JSON). */
module Executor {
  import opened Wrappers
  import opened Text
  import opened Json
  import KeyedList
  import opened UrlEncoding
  import opened OpenApi

  // ---------------------------------------------------------------------------
  // URL construction
  // ---------------------------------------------------------------------------

  /** The URL text and the `URLSearchParams` entries while the parameter loop
      runs. */
  datatype Draft = Draft(url: string, query: seq<(string, string)>)

  /** The placeholder a path parameter fills in the path template. */
  function Placeholder(name: string): string {
    "{" + name + "}"
  }

  /** `encodeURIComponent` never produces `$`, so `replace` inserts its output
      literally. */
  lemma EncodedHasNoDollar(s: string)
    ensures '$' !in EncodeURIComponent(s)
  {
    var r := EncodeURIComponent(s);
    forall i | 0 <= i < |r| ensures r[i] != '$' {
      assert UriUnreserved(r[i]) || r[i] == '%';
    }
  }

  /** `args[name] !== undefined`: an own property of the arguments object,
      or one it inherits from `Object.prototype`. */
  predicate HasArgument(args: map<string, Json>, name: string) {
    name in args || name in PrototypeNames
  }

  /** `String(args[name])`, the text the loop encodes or sets. */
  function ArgumentText(args: map<string, Json>, name: string, nt: NumberText): string
    requires HasArgument(args, name)
  {
    if name in args then ToJsString(args[name], nt) else InheritedText(name)
  }

  /** One iteration of the parameter loop: an argument that reads as
      `undefined` is skipped; a `path` parameter replaces the first
      occurrence of its placeholder by the encoded value; a `query`
      parameter is `set` on the search parameters; any other location is
      ignored. Values are converted with `String(value)`. */
  function ApplyParameter(d: Draft, p: Parameter, args: map<string, Json>, nt: NumberText): Draft {
    if !HasArgument(args, p.name) then d
    else if p.location == "path" then
      var encoded := EncodeURIComponent(ArgumentText(args, p.name, nt));
      EncodedHasNoDollar(ArgumentText(args, p.name, nt));
      Draft(ReplaceFirst(d.url, Placeholder(p.name), encoded), d.query)
    else if p.location == "query" then
      Draft(d.url, KeyedList.SetParam(d.query, p.name, ArgumentText(args, p.name, nt)))
    else d
  }

  /** The draft after the loop has visited the parameters `ps` in order. */
  function ApplyAll(d: Draft, ps: seq<Parameter>, args: map<string, Json>, nt: NumberText): Draft {
    if ps == [] then d else ApplyParameter(ApplyAll(d, ps[..|ps| - 1], args, nt), ps[|ps| - 1], args, nt)
  }

  /** The draft the loop starts from: `${BASE_URL}${path}` and no search
      parameters. */
  function StartDraft(base: string, info: PathInfo): Draft {
    Draft(base + info.path, [])
  }

  /** The URL of a finished draft: its URL text, followed by `?` and the
      serialized search parameters when that serialization is non-empty. */
  function UrlOf(d: Draft): string {
    var qs := SerializeQuery(d.query);
    if qs != "" then d.url + "?" + qs else d.url
  }

  /** The URL that is fetched when every argument converts to a string. */
  function RequestUrl(base: string, info: PathInfo, args: map<string, Json>, nt: NumberText): string {
    UrlOf(ApplyAll(StartDraft(base, info), info.parameters, args, nt))
  }

  // ---------------------------------------------------------------------------
  // Conversion of the arguments
  // ---------------------------------------------------------------------------

  /** Whether the loop's use of parameter `p` converts its argument without
      throwing: `encodeURIComponent` (a `path` parameter) and `set` (a
      `query` parameter) both convert with `String(value)`. An inherited
      member converts, and other locations do not convert at all. */
  predicate ParameterConverts(p: Parameter, args: map<string, Json>) {
    p.name in args && (p.location == "path" || p.location == "query") ==> Convertible(args[p.name])
  }

  /** One iteration of the loop as it runs: converting an argument with an
      own `toString` throws. */
  function StepParameter(d: Draft, p: Parameter, args: map<string, Json>, nt: NumberText): Result<Draft, string> {
    if ParameterConverts(p, args) then Success(ApplyParameter(d, p, args, nt)) else Failure(CannotConvert)
  }

  /** The loop as it runs over `ps`: the first conversion that throws ends
      it, before anything is fetched. */
  function RunParameters(d: Draft, ps: seq<Parameter>, args: map<string, Json>, nt: NumberText): Result<Draft, string> {
    if ps == [] then Success(d)
    else
      match RunParameters(d, ps[..|ps| - 1], args, nt)
      case Failure(e) => Failure(e)
      case Success(d') => StepParameter(d', ps[|ps| - 1], args, nt)
  }

  /** The loop throws exactly when some `path` or `query` parameter has an
      own argument that does not convert, and then with `CannotConvert`;
      otherwise it produces the draft of `ApplyAll`. */
  lemma {:induction false} RunParametersAgrees(d: Draft, ps: seq<Parameter>, args: map<string, Json>, nt: NumberText)
    ensures RunParameters(d, ps, args, nt) ==
      if forall i :: 0 <= i < |ps| ==> ParameterConverts(ps[i], args) then Success(ApplyAll(d, ps, args, nt))
      else Failure(CannotConvert)
  {
    if ps != [] {
      var init, last := ps[..|ps| - 1], ps[|ps| - 1];
      RunParametersAgrees(d, init, args, nt);
      assert forall i :: 0 <= i < |init| ==> init[i] == ps[i];
      if !forall i :: 0 <= i < |init| ==> ParameterConverts(init[i], args) {
        var i :| 0 <= i < |init| && !ParameterConverts(init[i], args);
        assert !ParameterConverts(ps[i], args);
      }
    }
  }

  /** The URL part of `executeAPICall`: the URL to fetch, or the TypeError
      the parameter loop throws for an argument that does not convert. */
  function BuildUrl(base: string, info: PathInfo, args: map<string, Json>, nt: NumberText): (r: Result<string, string>)
    ensures r.Success? <==> forall i :: 0 <= i < |info.parameters| ==> ParameterConverts(info.parameters[i], args)
    ensures r.Success? ==> r.value == RequestUrl(base, info, args, nt)
    ensures r.Failure? ==> r.error == CannotConvert
  {
    RunParametersAgrees(StartDraft(base, info), info.parameters, args, nt);
    match RunParameters(StartDraft(base, info), info.parameters, args, nt)
    case Failure(e) => Failure(e)
    case Success(d) => Success(UrlOf(d))
  }

  /** An argument whose object value has its own `toString` fails the call
      before any URL is built, even when its placeholder is absent. */
  lemma ConversionFailureExample(base: string, path: string, nt: NumberText)
    ensures var p := Parameter("q", "query", None, false, None);
      BuildUrl(base, PathInfo(path, [p]), map["q" := JObj([("toString", JNum(1.0))])], nt) == Failure(CannotConvert)
  {
    var p := Parameter("q", "query", None, false, None);
    var v := JObj([("toString", JNum(1.0))]);
    assert KeyedList.Lookup(v.fields, "toString").Some?;
    assert !ParameterConverts([p][0], map["q" := v]);
  }

  // ---------------------------------------------------------------------------
  // Reference description of the search parameters
  // ---------------------------------------------------------------------------

  /** The names of the `query` parameters that have an argument, in
      declaration order (repetitions included). */
  function QueryNames(ps: seq<Parameter>, args: map<string, Json>): (ns: seq<string>)
    ensures forall n :: n in ns ==> HasArgument(args, n)
    ensures forall n :: n in ns <==> exists i :: 0 <= i < |ps| && ps[i].location == "query" && HasArgument(args, ps[i].name) && ps[i].name == n
  {
    if ps == [] then []
    else
      var init := ps[..|ps| - 1];
      var last := ps[|ps| - 1];
      var ns := QueryNames(init, args) + (if last.location == "query" && HasArgument(args, last.name) then [last.name] else []);
      assert forall i :: 0 <= i < |init| ==> init[i] == ps[i];
      ns
  }

  /** Each name paired with the text of its argument. */
  function ArgumentPairs(ns: seq<string>, args: map<string, Json>, nt: NumberText): (r: seq<(string, string)>)
    requires forall n :: n in ns ==> HasArgument(args, n)
    ensures KeyedList.Keys(r) == ns
  {
    if ns == [] then [] else [(ns[0], ArgumentText(args, ns[0], nt))] + ArgumentPairs(ns[1..], args, nt)
  }

  /** The search parameters the loop produces: one pair per name that some
      `query` parameter with an argument carries, ordered by first
      declaration, with the text of that name's argument. */
  function ExpectedQuery(ps: seq<Parameter>, args: map<string, Json>, nt: NumberText): seq<(string, string)> {
    ArgumentPairs(KeyedList.FirstOccurrences(QueryNames(ps, args)), args, nt)
  }

  // ---------------------------------------------------------------------------
  // Properties of URL construction
  // ---------------------------------------------------------------------------

  lemma {:induction false} LookupArgumentPairs(ns: seq<string>, args: map<string, Json>, nt: NumberText, n: string)
    requires forall m :: m in ns ==> HasArgument(args, m)
    requires n in ns
    ensures KeyedList.Lookup(ArgumentPairs(ns, args, nt), n) == Some(ArgumentText(args, n, nt))
  {
    var e := (ns[0], ArgumentText(args, ns[0], nt));
    KeyedList.LookupCons(e, ArgumentPairs(ns[1..], args, nt));
    if ns[0] != n {
      assert ns == [ns[0]] + ns[1..];
      LookupArgumentPairs(ns[1..], args, nt, n);
    }
  }

  lemma {:induction false} ArgumentPairsSnoc(ns: seq<string>, n: string, args: map<string, Json>, nt: NumberText)
    requires forall m :: m in ns ==> HasArgument(args, m)
    requires HasArgument(args, n)
    ensures ArgumentPairs(ns + [n], args, nt) == ArgumentPairs(ns, args, nt) + [(n, ArgumentText(args, n, nt))]
  {
    if ns != [] {
      assert (ns + [n])[0] == ns[0] && (ns + [n])[1..] == ns[1..] + [n];
      ArgumentPairsSnoc(ns[1..], n, args, nt);
      var h := [(ns[0], ArgumentText(args, ns[0], nt))];
      var e := [(n, ArgumentText(args, n, nt))];
      assert ArgumentPairs(ns + [n], args, nt) == h + ArgumentPairs(ns[1..] + [n], args, nt);
      assert h + (ArgumentPairs(ns[1..], args, nt) + e) == (h + ArgumentPairs(ns[1..], args, nt)) + e;
    } else {
      assert ns + [n] == [n];
    }
  }

  /** One more first occurrence, or none, at the end of a key list. */
  lemma FirstOccurrencesSnoc(ks: seq<string>, k: string)
    ensures KeyedList.FirstOccurrences(ks + [k]) ==
      var f := KeyedList.FirstOccurrences(ks); if k in f then f else f + [k]
  {
    assert (ks + [k])[..|ks|] == ks;
  }

  /** The query step of the loop on search parameters already of the expected
      form. */
  lemma QueryStep(ns: seq<string>, n: string, args: map<string, Json>, nt: NumberText)
    requires forall m :: m in ns ==> HasArgument(args, m)
    requires HasArgument(args, n)
    ensures var f := KeyedList.FirstOccurrences(ns);
      KeyedList.SetParam(ArgumentPairs(f, args, nt), n, ArgumentText(args, n, nt)) ==
        ArgumentPairs(KeyedList.FirstOccurrences(ns + [n]), args, nt)
  {
    var f := KeyedList.FirstOccurrences(ns);
    var q := ArgumentPairs(f, args, nt);
    var t := ArgumentText(args, n, nt);
    FirstOccurrencesSnoc(ns, n);
    assert KeyedList.SetParam(q, n, t) == KeyedList.Assign(q, n, t);
    if n in f {
      LookupArgumentPairs(f, args, nt, n);
      KeyedList.AssignSame(q, n, t);
    } else {
      KeyedList.AssignNew(q, n, t);
      ArgumentPairsSnoc(f, n, args, nt);
    }
  }

  /** The search-parameter property: starting from no parameters, the loop
      yields exactly the `query` parameters that have an argument, each name
      once, in order of first declaration, with the text of its argument (a
      repeated name is `set` again to the same text). */
  lemma {:induction false} QueryOfParameters(d: Draft, ps: seq<Parameter>, args: map<string, Json>, nt: NumberText)
    requires d.query == []
    ensures ApplyAll(d, ps, args, nt).query == ExpectedQuery(ps, args, nt)
  {
    if ps != [] {
      QueryOfParameters(d, ps[..|ps| - 1], args, nt);
      QueryLoopStep(d, ps, args, nt);
    }
  }

  /** One iteration keeps the search parameters of the expected form. */
  lemma QueryLoopStep(d: Draft, ps: seq<Parameter>, args: map<string, Json>, nt: NumberText)
    requires ps != []
    requires ApplyAll(d, ps[..|ps| - 1], args, nt).query == ExpectedQuery(ps[..|ps| - 1], args, nt)
    ensures ApplyAll(d, ps, args, nt).query == ExpectedQuery(ps, args, nt)
  {
    var init, p := ps[..|ps| - 1], ps[|ps| - 1];
    var ns := QueryNames(init, args);
    ParameterQuery(ApplyAll(d, init, args, nt), p, args, nt);
    if HasArgument(args, p.name) && p.location == "query" {
      assert QueryNames(ps, args) == ns + [p.name];
      QueryStep(ns, p.name, args, nt);
    } else {
      assert QueryNames(ps, args) == ns;
    }
  }

  /** The search parameters after one iteration: `set` for a `query`
      parameter with an argument, unchanged otherwise. */
  lemma ParameterQuery(d: Draft, p: Parameter, args: map<string, Json>, nt: NumberText)
    ensures ApplyParameter(d, p, args, nt).query ==
      if HasArgument(args, p.name) && p.location == "query" then KeyedList.SetParam(d.query, p.name, ArgumentText(args, p.name, nt))
      else d.query
  {
  }

  /** A `query` parameter named after a member of `Object.prototype` is
      sent even without an argument of that name: `args.constructor` is the
      `Object` function, whose text becomes the value. */
  lemma InheritedArgumentIsSent(d: Draft, args: map<string, Json>, nt: NumberText)
    requires d.query == [] && "constructor" !in args
    ensures var p := Parameter("constructor", "query", None, false, None);
      ApplyParameter(d, p, args, nt).query == [("constructor", "function Object() { [native code] }")]
  {
  }

  /** Splitting the parameter list splits the loop. */
  lemma {:induction false} ApplyAllAppend(d: Draft, xs: seq<Parameter>, ys: seq<Parameter>, args: map<string, Json>, nt: NumberText)
    ensures ApplyAll(d, xs + ys, args, nt) == ApplyAll(ApplyAll(d, xs, args, nt), ys, args, nt)
  {
    if ys == [] {
      assert xs + ys == xs;
    } else {
      var init, last := ys[..|ys| - 1], ys[|ys| - 1];
      assert (xs + ys)[..|xs + ys| - 1] == xs + init;
      assert (xs + ys)[|xs + ys| - 1] == last;
      ApplyAllAppend(d, xs, init, args, nt);
      assert ApplyAll(d, xs + ys, args, nt) == ApplyParameter(ApplyAll(d, xs + init, args, nt), last, args, nt);
    }
  }

  /** A parameter without an argument, or located neither in the path nor in
      the query, has no effect: removing it from the list leaves the request
      unchanged. */
  lemma IgnoredParameterRemovable(d: Draft, ps: seq<Parameter>, i: int, args: map<string, Json>, nt: NumberText)
    requires 0 <= i < |ps|
    requires !HasArgument(args, ps[i].name) || (ps[i].location != "path" && ps[i].location != "query")
    ensures ApplyAll(d, ps[..i] + ps[i + 1..], args, nt) == ApplyAll(d, ps, args, nt)
  {
    var xs, ys := ps[..i], ps[i + 1..];
    assert ps == (xs + [ps[i]]) + ys;
    ApplyAllAppend(d, xs + [ps[i]], ys, args, nt);
    ApplyAllAppend(d, xs, ys, args, nt);
    assert (xs + [ps[i]])[..|xs|] == xs;
  }

  /** Without an argument for any `path` parameter the URL is the template
      as it stands, placeholders included. */
  lemma {:induction false} UrlWithoutPathArguments(d: Draft, ps: seq<Parameter>, args: map<string, Json>, nt: NumberText)
    requires forall i :: 0 <= i < |ps| && ps[i].location == "path" ==> !HasArgument(args, ps[i].name)
    ensures ApplyAll(d, ps, args, nt).url == d.url
  {
    if ps != [] {
      var init := ps[..|ps| - 1];
      assert forall i :: 0 <= i < |init| ==> init[i] == ps[i];
      UrlWithoutPathArguments(d, init, args, nt);
    }
  }

  /** A `path` parameter with an argument replaces the FIRST occurrence of
      its placeholder by the encoded value and leaves the rest of the URL,
      later occurrences included, as it was. */
  lemma PathSubstitution(d: Draft, p: Parameter, args: map<string, Json>, nt: NumberText, before: string, after: string)
    requires p.location == "path" && HasArgument(args, p.name)
    requires d.url == before + Placeholder(p.name) + after
    requires forall j :: 0 <= j < |before| ==> !OccursAt(d.url, Placeholder(p.name), j)
    ensures ApplyParameter(d, p, args, nt).url ==
      before + EncodeURIComponent(ArgumentText(args, p.name, nt)) + after
    ensures ApplyParameter(d, p, args, nt).query == d.query
  {
    var pat := Placeholder(p.name);
    assert d.url[|before|..|before| + |pat|] == pat;
    assert OccursAt(d.url, pat, |before|);
    assert d.url[..|before|] == before;
    assert d.url[|before| + |pat|..] == after;
  }

  /** A `path` parameter whose placeholder does not occur leaves the URL as
      it was. */
  lemma PathWithoutPlaceholder(d: Draft, p: Parameter, args: map<string, Json>, nt: NumberText)
    requires p.location == "path"
    requires forall j :: !OccursAt(d.url, Placeholder(p.name), j)
    ensures ApplyParameter(d, p, args, nt) == d
  {
  }

  /** The worked example: `/v1/items/{id}` with `id = "a b"` requests
      `/v1/items/a%20b`. */
  lemma ItemExample(base: string, nt: NumberText)
    requires '{' !in base
    ensures var p := Parameter("id", "path", None, true, None);
      RequestUrl(base, PathInfo("/v1/items/{id}", [p]), map["id" := JStr("a b")], nt) == base + "/v1/items/a%20b"
  {
    var p := Parameter("id", "path", None, true, None);
    var args := map["id" := JStr("a b")];
    var info := PathInfo("/v1/items/{id}", [p]);
    var d1 := ApplyParameter(StartDraft(base, info), p, args, nt);
    ItemDraft(base, nt);
    assert ApplyAll(StartDraft(base, info), [p], args, nt) == d1 by {
      assert [p][..0] == [];
    }
    assert SerializeQuery(d1.query) == "" by { SerializeQueryEmpty([]); }
  }

  lemma ItemDraft(base: string, nt: NumberText)
    requires '{' !in base
    ensures var p := Parameter("id", "path", None, true, None);
      ApplyParameter(StartDraft(base, PathInfo("/v1/items/{id}", [p])), p, map["id" := JStr("a b")], nt) ==
        Draft(base + "/v1/items/a%20b", [])
  {
    var p := Parameter("id", "path", None, true, None);
    var args := map["id" := JStr("a b")];
    var d := StartDraft(base, PathInfo("/v1/items/{id}", [p]));
    var before := base + "/v1/items/";
    assert d.url == before + Placeholder("id") + "";
    NoEarlierPlaceholder(base, d.url);
    PathSubstitution(d, p, args, nt, before, "");
    var r := ApplyParameter(d, p, args, nt);
    var enc := EncodeURIComponent(ArgumentText(args, "id", nt));
    assert enc == "a%20b" by {
      assert ArgumentText(args, "id", nt) == "a b";
      EncodeExample();
    }
    assert r.url == before + enc + "";
    ItemUrlText(base);
  }

  /** The URL text of the example, kept apart so that the string fact is
      proved without the draft in view. */
  lemma ItemUrlText(base: string)
    ensures base + "/v1/items/" + "a%20b" + "" == base + "/v1/items/a%20b"
  {
    assert "/v1/items/" + "a%20b" == "/v1/items/a%20b";
    assert base + "/v1/items/" + "a%20b" == base + ("/v1/items/" + "a%20b");
  }

  lemma EncodeExample()
    ensures EncodeURIComponent("a b") == "a%20b"
  {
    assert EncodeURIComponent("b") == "b" by {
      assert ("b")[1..] == "";
      assert UriUnreserved('b');
    }
    assert EncodeURIComponent(" b") == "%20b" by {
      assert (" b")[1..] == "b";
      assert !UriUnreserved(' ');
      assert Utf8(' ') == [32];
      assert PercentBytes([32]) == "%20" by {
        assert PercentByte(32) == "%20";
      }
    }
    assert EncodeURIComponent("a b") == "a" + EncodeURIComponent(" b") by {
      assert ("a b")[1..] == " b";
      assert UriUnreserved('a');
    }
  }

  lemma NoEarlierPlaceholder(base: string, url: string)
    requires '{' !in base
    requires url == base + "/v1/items/" + Placeholder("id") + ""
    ensures forall j :: 0 <= j < |base + "/v1/items/"| ==> !OccursAt(url, Placeholder("id"), j)
  {
    var pat := Placeholder("id");
    forall j | 0 <= j < |base + "/v1/items/"| ensures !OccursAt(url, pat, j) {
      assert url[j] != '{' by {
        if j < |base| {
          assert url[j] == base[j];
        } else {
          assert url[j] == "/v1/items/"[j - |base|];
        }
      }
      assert pat[0] == '{';
      assert j + |pat| <= |url| ==> url[j..j + |pat|][0] == url[j];
    }
  }

  /** The shape of the fetched URL: the draft URL alone when no `query`
      parameter has an argument; otherwise the draft URL, `?` and a query
      string that parses back to exactly the expected search parameters. */
  lemma RequestUrlShape(base: string, info: PathInfo, args: map<string, Json>, nt: NumberText)
    ensures var u := ApplyAll(StartDraft(base, info), info.parameters, args, nt).url;
      var pairs := ExpectedQuery(info.parameters, args, nt);
      && (pairs == [] ==> RequestUrl(base, info, args, nt) == u)
      && (pairs != [] ==> exists q :: RequestUrl(base, info, args, nt) == u + "?" + q && ParseQuery(q) == Some(pairs))
  {
    var pairs := ExpectedQuery(info.parameters, args, nt);
    QueryOfParameters(StartDraft(base, info), info.parameters, args, nt);
    SerializeQueryEmpty(pairs);
    QueryRoundTrip(pairs);
  }

  /** `?` is appended exactly when some `query` parameter has an argument. */
  lemma QuestionMarkIffQueryArgument(base: string, info: PathInfo, args: map<string, Json>, nt: NumberText)
    ensures var u := ApplyAll(StartDraft(base, info), info.parameters, args, nt).url;
      var ps := info.parameters;
      (RequestUrl(base, info, args, nt) == u) <==>
        !exists i :: 0 <= i < |ps| && ps[i].location == "query" && HasArgument(args, ps[i].name)
  {
    var ps := info.parameters;
    var ns := QueryNames(ps, args);
    var pairs := ExpectedQuery(ps, args, nt);
    QueryOfParameters(StartDraft(base, info), ps, args, nt);
    SerializeQueryEmpty(pairs);
    assert KeyedList.Keys(pairs) == KeyedList.FirstOccurrences(ns);
    if exists i :: 0 <= i < |ps| && ps[i].location == "query" && HasArgument(args, ps[i].name) {
      var i :| 0 <= i < |ps| && ps[i].location == "query" && HasArgument(args, ps[i].name);
      assert ps[i].name in KeyedList.Keys(pairs);
    } else {
      HeadIn(ns);
      assert ns == [];
      assert KeyedList.FirstOccurrences(ns) == [];
    }
  }

  lemma HeadIn<T>(xs: seq<T>)
    ensures xs != [] ==> xs[0] in xs
  {
  }

  // ---------------------------------------------------------------------------
  // Envelope classification
  // ---------------------------------------------------------------------------

  /** A property that is present and truthy. */
  predicate TruthyProperty(j: Json, key: string)
    requires !j.JNull?
  {
    var v := Get(j, key);
    v.Some? && Truthy(v.value)
  }

  /** `data.error?.message`, when that is truthy. */
  function ErrorMessage(data: Json): Option<Json>
    requires !data.JNull?
  {
    match Get(data, "error")
    case None => None
    case Some(err) =>
      if err.JNull? then None
      else if TruthyProperty(err, "message") then Get(err, "message")
      else None
  }

  /** The outcome of the request once the response is in: the envelope, or
      the message of the error thrown. `body` is `None` when the response is
      not valid JSON. The outcome is a success exactly for a parsed successful
      envelope, and then it is that envelope, unchanged. */
  function Classify(status: nat, statusText: string, body: Option<Json>, nt: NumberText): (r: Result<Json, string>)
    ensures r.Success? <==> body.Some? && IsSuccessEnvelope(body.value)
    ensures r.Success? ==> r.value == body.value
  {
    match body
    case None => Failure("HTTP " + NatToString(status) + ": " + statusText)
    case Some(data) =>
      if data.JNull? then Failure(NullRead("success"))
      else if TruthyProperty(data, "success") then Success(data)
      else
        match ErrorMessage(data)
        case Some(m) => Failure(if Convertible(m) then ToJsString(m, nt) else CannotConvert)
        case None => Failure("Request failed (" + NatToString(status) + ")")
  }

  /** A successful envelope: a JSON object whose `success` member is truthy. */
  ghost predicate IsSuccessEnvelope(j: Json) {
    j.JObj? && exists v :: KeyedList.Lookup(j.fields, "success") == Some(v) && Truthy(v)
  }

  /** A body that is not JSON fails with the status line. */
  lemma ClassifyUnparsable(status: nat, statusText: string, nt: NumberText)
    ensures Classify(status, statusText, None, nt) == Failure("HTTP " + NatToString(status) + ": " + statusText)
  {
  }

  /** A parsed body that is not `null` and not a successful envelope (an
      object without a truthy `success`, or an array, string, number or
      boolean) fails with its truthy `error.message` when it has one, and
      with the generic message otherwise. `new Error(message)` converts the
      message, so one with an own `toString` fails with that TypeError
      instead. */
  lemma ClassifyUnsuccessful(status: nat, statusText: string, data: Json, nt: NumberText)
    requires !data.JNull? && !IsSuccessEnvelope(data)
    ensures var err := Get(data, "error");
      var msg := if err.Some? && !err.value.JNull? then Get(err.value, "message") else None;
      Classify(status, statusText, Some(data), nt) ==
        if msg.Some? && Truthy(msg.value) then
          Failure(if Convertible(msg.value) then ToJsString(msg.value, nt) else CannotConvert)
        else Failure("Request failed (" + NatToString(status) + ")")
  {
  }

  /** A body that parses as `null` fails with V8's TypeError for reading
      `success` from `null`. */
  lemma ClassifyNullBody(status: nat, statusText: string, nt: NumberText)
    ensures Classify(status, statusText, Some(JNull), nt) == Failure(NullRead("success"))
  {
  }

  /** The worked example: `{success: false, error: {message: "quota
      exceeded"}}` fails with the text `quota exceeded`. */
  lemma QuotaExample(status: nat, statusText: string, nt: NumberText)
    ensures var body := JObj([("success", JBool(false)), ("error", JObj([("message", JStr("quota exceeded"))]))]);
      Classify(status, statusText, Some(body), nt) == Failure("quota exceeded")
  {
    var inner := [("message", JStr("quota exceeded"))];
    var fs := [("success", JBool(false)), ("error", JObj(inner))];
    assert fs[1..] == [("error", JObj(inner))];
    assert KeyedList.Lookup(fs, "success") == Some(JBool(false));
    assert KeyedList.Lookup(fs[1..], "error") == Some(JObj(inner));
    assert KeyedList.Lookup(fs, "error") == Some(JObj(inner));
    assert KeyedList.Lookup(inner, "message") == Some(JStr("quota exceeded"));
  }
}

=== FILE: handler.dfy ===
/** The `tools/call` request handler: look the tool up in the path map, call
    its endpoint, render the envelope, and turn every error thrown on the way
    into an error reply. The network is a parameter: `fetch` maps each
    request URL to what came back. */
module Handler {
  import opened Wrappers
  import opened Text
  import opened Json
  import KeyedList
  import opened OpenApi
  import opened Executor
  import opened Render

  /** The single text content item of a reply and its `isError` flag. */
  datatype Reply = Reply(text: string, isError: bool)

  /** What came back for a request URL: a response with its status, its
      status text and its body parsed as JSON (`None` when the body is not
      JSON), or the message of the error `fetch` rejected with. */
  datatype Transport =
    | Received(status: nat, statusText: string, body: Option<Json>)
    | Unreachable(message: string)

  /** The outcome of `executeAPICall` once the URL has been fetched. */
  function Outcome(t: Transport, nt: NumberText): (r: Result<Json, string>)
    ensures r.Success? ==> t.Received? && t.body == Some(r.value) && IsSuccessEnvelope(r.value)
    ensures t.Unreachable? ==> r == Failure(t.message)
  {
    match t
    case Unreachable(m) => Failure(m)
    case Received(status, statusText, body) => Classify(status, statusText, body, nt)
  }

  /** The URL the handler fetches for a known tool, with `args || {}`
      filling the template, or the error the parameter loop throws. */
  function CallUrl(info: PathInfo, base: string, args: Option<map<string, Json>>, nt: NumberText): Result<string, string> {
    BuildUrl(base, info, args.GetOr(map[]), nt)
  }

  /** The reply for a known tool: build and fetch its URL, classify the
      response and render the envelope; any error thrown becomes
      `Error: <message>`. */
  function Execute(info: PathInfo, base: string, args: Option<map<string, Json>>,
                   fetch: string -> Transport, nt: NumberText): (reply: Reply)
    ensures reply.isError ==> |reply.text| >= 7 && reply.text[..7] == "Error: "
    ensures CallUrl(info, base, args, nt).Failure? ==> reply == Reply("Error: " + CannotConvert, true)
  {
    match CallUrl(info, base, args, nt)
    case Failure(m) => Reply("Error: " + m, true)
    case Success(url) =>
      match Outcome(fetch(url), nt)
      case Failure(m) => Reply("Error: " + m, true)
      case Success(envelope) =>
        match FormatResponse(envelope, nt)
        case Failure(m) => Reply("Error: " + m, true)
        case Success(text) => Reply(text, false)
  }

  /** The reply to `tools/call` for tool `name` with `arguments` `args`. */
  function HandleCall(
    pathMap: map<string, PathInfo>, base: string, name: string,
    args: Option<map<string, Json>>, fetch: string -> Transport, nt: NumberText): (reply: Reply)
    ensures name !in pathMap && name !in PrototypeNames ==> reply == Reply("Error: Unknown tool \"" + name + "\"", true)
    ensures name !in pathMap && name in PrototypeNames ==> reply == Reply("Error: " + NotIterable("parameters"), true)
    ensures reply.isError ==> |reply.text| >= 7 && reply.text[..7] == "Error: "
  {
    if name in pathMap then Execute(pathMap[name], base, args, fetch, nt)
    // An inherited member is truthy and taken as the path information; its
    // `parameters` is `undefined`, so the parameter loop throws.
    else if name in PrototypeNames then Reply("Error: " + NotIterable("parameters"), true)
    else Reply("Error: Unknown tool \"" + name + "\"", true)
  }

  /** A reply that is not an error is the rendering of the successful
      envelope that came back for the tool's URL. An error reply carries the
      conversion error of an argument (nothing is fetched then), the message
      of the failed request, or a rendering error: the TypeError of a `null`
      array item or of a value that does not convert. */
  lemma ReplyOrigin(info: PathInfo, base: string, args: Option<map<string, Json>>,
                    fetch: string -> Transport, nt: NumberText)
    ensures var reply := Execute(info, base, args, fetch, nt);
      var u := CallUrl(info, base, args, nt);
      && (u.Failure? ==> reply == Reply("Error: " + CannotConvert, true))
      && (u.Success? ==>
            var t := fetch(u.value);
            && (!reply.isError <==>
                  t.Received? && t.body.Some? && IsSuccessEnvelope(t.body.value)
                  && FormatResponse(t.body.value, nt).Success?)
            && (!reply.isError ==> reply.text == FormatResponse(t.body.value, nt).value)
            && (reply.isError ==>
                  (Outcome(t, nt).Failure? && reply.text == "Error: " + Outcome(t, nt).error)
                  || (Outcome(t, nt).Success? &&
                      (reply.text == "Error: " + NullRead("id") || reply.text == "Error: " + CannotConvert))))
  {
    var u := CallUrl(info, base, args, nt);
    if u.Success? {
      var o := Outcome(fetch(u.value), nt);
      if o.Success? {
        RenderFailures(o.value, nt);
      }
    }
  }

  /** Rendering fails only in a `formatArray`, anywhere in the data: by
      reading `id` of a `null` item, or by interpolating an item or an `id`
      that does not convert. */
  lemma RenderFailures(envelope: Json, nt: NumberText)
    requires !envelope.JNull?
    ensures var r := FormatResponse(envelope, nt);
      r.Failure? ==> r.error == NullRead("id") || r.error == CannotConvert
  {
    var data := Get(envelope, "data");
    if data.Some? && !data.value.JNull? && !data.value.JArr? {
      ObjectRenderFailures(JObj(Entries(data.value)), 0, 0, nt);
    }
  }

  /** `formatObject` fails only with the error of a nested `formatArray`. */
  lemma {:induction false} ObjectRenderFailures(obj: Json, i: nat, indent: nat, nt: NumberText)
    requires obj.JObj? && i <= |obj.fields|
    ensures var r := ObjectLines(obj, i, indent, nt);
      r.Failure? ==> r.error == NullRead("id") || r.error == CannotConvert
    decreases obj, |obj.fields| - i
  {
    if i < |obj.fields| {
      var (key, value) := obj.fields[i];
      var e := EntryLines(key, value, indent, nt);
      if e.Failure? {
        if value.JObj? {
          ObjectRenderFailures(value, 0, indent + 1, nt);
          assert FormatObject(value, indent + 1, nt).Failure?;
        } else {
          assert value.JArr? && FormatArray(value.items, nt).Failure?;
        }
      }
      ObjectRenderFailures(obj, i + 1, indent, nt);
    }
  }

  /** The reply depends on the network only through what comes back for the
      tool's URL: two transports that agree there give the same reply. */
  lemma OnlyTheToolUrlIsFetched(
    pathMap: map<string, PathInfo>, base: string, name: string,
    args: Option<map<string, Json>>, f: string -> Transport, g: string -> Transport, nt: NumberText)
    requires name in pathMap && CallUrl(pathMap[name], base, args, nt).Success? ==>
      var u := CallUrl(pathMap[name], base, args, nt).value;
      f(u) == g(u)
    ensures HandleCall(pathMap, base, name, args, f, nt) == HandleCall(pathMap, base, name, args, g, nt)
  {
  }

  /** Missing arguments are treated as an empty argument object. */
  lemma MissingArgumentsAreEmpty(
    pathMap: map<string, PathInfo>, base: string, name: string, fetch: string -> Transport, nt: NumberText)
    ensures HandleCall(pathMap, base, name, None, fetch, nt) == HandleCall(pathMap, base, name, Some(map[]), fetch, nt)
  {
  }

  /** On the catalog translated from a document, `tools/call` executes
      exactly the tools `tools/list` offers, with the route of the last
      operation of that name. Any other name is answered as unknown, except
      a name inherited from `Object.prototype`, which fails in the
      parameter loop. */
  lemma CallsFollowTheCatalog(
    paths: Paths, base: string, name: string,
    args: Option<map<string, Json>>, fetch: string -> Transport, nt: NumberText)
    ensures var c := Translate(paths);
      && ((exists t :: t in c.tools && t.name == name) ==>
            name in c.pathMap && HandleCall(c.pathMap, base, name, args, fetch, nt) == Execute(c.pathMap[name], base, args, fetch, nt))
      && ((forall t :: t in c.tools ==> t.name != name) && name !in PrototypeNames ==>
            HandleCall(c.pathMap, base, name, args, fetch, nt) == Reply("Error: Unknown tool \"" + name + "\"", true))
      && ((forall t :: t in c.tools ==> t.name != name) && name in PrototypeNames ==>
            HandleCall(c.pathMap, base, name, args, fetch, nt) == Reply("Error: " + NotIterable("parameters"), true))
  {
    OnlyGetOperationsExposed(paths);
  }

  /** The worked example end to end: an unsuccessful envelope with an error
      message becomes the error reply `Error: quota exceeded`. */
  lemma QuotaReply(info: PathInfo, base: string, args: Option<map<string, Json>>,
                   fetch: string -> Transport, nt: NumberText, status: nat, statusText: string)
    requires CallUrl(info, base, args, nt).Success?
    requires fetch(CallUrl(info, base, args, nt).value) == Received(status, statusText, Some(
      JObj([("success", JBool(false)), ("error", JObj([("message", JStr("quota exceeded"))]))])))
    ensures Execute(info, base, args, fetch, nt) == Reply("Error: quota exceeded", true)
  {
    QuotaExample(status, statusText, nt);
    var t := fetch(CallUrl(info, base, args, nt).value);
    assert Outcome(t, nt) == Failure("quota exceeded");
    QuotaText();
  }

  /** The error text of the example, kept apart so that the string fact is
      proved without the envelope in view. */
  lemma QuotaText()
    ensures "Error: " + "quota exceeded" == "Error: quota exceeded"
  {
  }

  /** The worked example end to end: a successful envelope whose data is
      `[{id: "x1", cost: 2.5, note: null}]` becomes the reply
      `• x1 — cost: $2.5000`. */
  lemma ItemReply(info: PathInfo, base: string, args: Option<map<string, Json>>,
                  fetch: string -> Transport, nt: NumberText, status: nat, statusText: string)
    requires nt.fixed(2.5, 4) == "2.5000"
    requires CallUrl(info, base, args, nt).Success?
    requires fetch(CallUrl(info, base, args, nt).value) == Received(status, statusText, Some(
      JObj([("success", JBool(true)), ("data", JArr([JObj([("id", JStr("x1")), ("cost", JNum(2.5)), ("note", JNull)])]))])))
    ensures Execute(info, base, args, fetch, nt) == Reply("\U{2022} x1 \U{2014} cost: $2.5000", false)
  {
    var item := JObj([("id", JStr("x1")), ("cost", JNum(2.5)), ("note", JNull)]);
    var fs := [("success", JBool(true)), ("data", JArr([item]))];
    assert KeyedList.Lookup(fs, "success") == Some(JBool(true));
    assert fs[1..] == [("data", JArr([item]))];
    assert KeyedList.Lookup(fs, "data") == Some(JArr([item]));
    BulletExample(nt);
    var t := fetch(CallUrl(info, base, args, nt).value);
    assert IsSuccessEnvelope(JObj(fs)) by {
      assert Truthy(JBool(true));
    }
    assert Outcome(t, nt) == Success(JObj(fs));
    assert FormatResponse(JObj(fs), nt) == FormatArray([item], nt);
  }
}

=== FILE: json.dfy ===
/** JSON values as the server sees them after `JSON.parse`, with the handful of
    JavaScript operations it applies to them: truthiness, `typeof`, property
    reads, `Object.entries` and conversion to text. */
module Json {
  import opened Wrappers
  import opened Text
  import KeyedList

  /** A parsed JSON value. Object fields are kept in `Object.entries` order.
      `JSON.parse` leaves one field per name, so the values used here are
      taken to have distinct field names; nothing in the type enforces it,
      and a property read returns the first field of a name. Numbers are the
      exact value of the IEEE double, as a real. */
  datatype Json =
    | JNull
    | JBool(b: bool)
    | JNum(n: real)
    | JStr(s: string)
    | JArr(items: seq<Json>)
    | JObj(fields: seq<(string, Json)>)

  /** The number-to-text conversions of the JavaScript runtime, which depend on
      binary floating point and on the host locale: `String(n)` (also used by
      template literals), `n.toFixed(d)` and `n.toLocaleString()`. */
  datatype NumberText = NumberText(
    show: real -> string,
    fixed: (real, nat) -> string,
    locale: real -> string)

  /** JavaScript truthiness (JSON has no NaN, so 0 is the only falsy number). */
  predicate Truthy(j: Json) {
    match j
    case JNull => false
    case JBool(b) => b
    case JNum(n) => n != 0.0
    case JStr(s) => s != ""
    case _ => true
  }

  /** `typeof j === "object"`: true of null, arrays and objects. */
  predicate IsObjectTyped(j: Json) {
    j.JNull? || j.JArr? || j.JObj?
  }

  /** Property read `j[key]` on a non-null value; `None` is `undefined`. Only
      objects have own properties with the names read here (`id`, `data`,
      `success`, `error`, `message`). */
  function Get(j: Json, key: string): Option<Json>
    requires !j.JNull?
  {
    if j.JObj? then KeyedList.Lookup(j.fields, key) else None
  }

  /** `Object.entries(j)` for a non-null value: an object's own fields, an
      array's or a string's index-named elements, nothing for a number or a
      boolean. */
  function Entries(j: Json): (es: seq<(string, Json)>)
    requires !j.JNull?
  {
    match j
    case JObj(fs) => fs
    case JArr(xs) => seq(|xs|, i requires 0 <= i < |xs| => (NatToString(i), xs[i]))
    case JStr(s) => seq(|s|, i requires 0 <= i < |s| => (NatToString(i), JStr([s[i]])))
    case _ => []
  }

  /** The message of the TypeError V8 throws when property `key` is read
      from `null`. */
  function NullRead(key: string): string {
    "Cannot read properties of null (reading '" + key + "')"
  }

  /** The message of the TypeError V8 throws when `for (… of name)` meets a
      variable `name` that holds `undefined`. */
  function NotIterable(name: string): string {
    name + " is not iterable"
  }

  /** The names a plain object inherits from `Object.prototype` in V8.
      Reading one of them from an object without an own property of that
      name gives the inherited member, not `undefined`. */
  const PrototypeNames: set<string> := {
    "constructor", "__defineGetter__", "__defineSetter__", "hasOwnProperty",
    "__lookupGetter__", "__lookupSetter__", "isPrototypeOf", "propertyIsEnumerable",
    "toString", "valueOf", "__proto__", "toLocaleString"}

  /** `String(o[name])` for an inherited member: `__proto__` reads
      `Object.prototype` itself, `constructor` the `Object` function, and
      every other name a built-in method. */
  function InheritedText(name: string): string
    requires name in PrototypeNames
  {
    if name == "__proto__" then "[object Object]"
    else if name == "constructor" then "function Object() { [native code] }"
    else "function " + name + "() { [native code] }"
  }

  /** The message of the TypeError V8 throws when converting an object to a
      string finds no callable `toString` or `valueOf` that returns a
      primitive. */
  const CannotConvert := "Cannot convert object to primitive value"

  /** Whether `String(j)` returns rather than throws. A parsed object with an
      own `toString` member holds data there, not a function, so the
      conversion falls through to the inherited `valueOf`, which returns the
      object itself, and throws `CannotConvert`. An array converts each of
      its elements. */
  predicate Convertible(j: Json) {
    match j
    case JObj(fs) => KeyedList.Lookup(fs, "toString").None?
    case JArr(xs) => forall i :: 0 <= i < |xs| ==> Convertible(xs[i])
    case _ => true
  }

  /** `String(j)`, the text a template literal interpolates, when `j` is
      `Convertible`: arrays join their elements with commas (null elements
      become empty), objects become `[object Object]`. */
  function ToJsString(j: Json, nt: NumberText): string {
    match j
    case JNull => "null"
    case JBool(b) => if b then "true" else "false"
    case JNum(n) => nt.show(n)
    case JStr(s) => s
    case JObj(_) => "[object Object]"
    case JArr(xs) =>
      Join(seq(|xs|, i requires 0 <= i < |xs| => if xs[i].JNull? then "" else ToJsString(xs[i], nt)), ",")
  }
}

=== FILE: keyed_list.dfy ===
/** Insertion-ordered string-keyed collections: the entries of a plain
    JavaScript object (`Object.entries` order for non-numeric keys) and the
    name-value list of a `URLSearchParams`. */
module KeyedList {
  import opened Wrappers

  function Keys<V>(fs: seq<(string, V)>): (ks: seq<string>)
    ensures |ks| == |fs|
    ensures forall i :: 0 <= i < |fs| ==> ks[i] == fs[i].0
  {
    seq(|fs|, i requires 0 <= i < |fs| => fs[i].0)
  }

  predicate Distinct(ks: seq<string>) {
    forall i, j :: 0 <= i < j < |ks| ==> ks[i] != ks[j]
  }

  /** Property read `obj[k]`: the value of the entry named `k`, or `None`
      (JavaScript's `undefined`) when there is none. */
  function Lookup<V>(fs: seq<(string, V)>, k: string): (r: Option<V>)
    ensures r.None? <==> k !in Keys(fs)
  {
    if fs == [] then None
    else if fs[0].0 == k then Some(fs[0].1)
    else
      var r := Lookup(fs[1..], k);
      assert Keys(fs) == [fs[0].0] + Keys(fs[1..]);
      r
  }

  /** Property write `obj[k] = v` on an ordinary object: an existing key keeps
      its place and takes the new value; a new key goes to the end. */
  function Assign<V>(fs: seq<(string, V)>, k: string, v: V): (r: seq<(string, V)>)
    ensures Keys(r) == if k in Keys(fs) then Keys(fs) else Keys(fs) + [k]
    ensures Lookup(r, k) == Some(v)
    ensures forall k' :: k' != k ==> Lookup(r, k') == Lookup(fs, k')
  {
    if fs == [] then [(k, v)]
    else if fs[0].0 == k then
      ReplaceHead(fs, v);
      [(k, v)] + fs[1..]
    else
      var t := Assign(fs[1..], k, v);
      KeepHead(fs, k, v, t);
      [fs[0]] + t
  }

  /** Replacing the value of the first entry keeps the keys and every other
      lookup. */
  lemma ReplaceHead<V>(fs: seq<(string, V)>, v: V)
    requires fs != []
    ensures Keys([(fs[0].0, v)] + fs[1..]) == Keys(fs)
    ensures forall k' :: k' != fs[0].0 ==> Lookup([(fs[0].0, v)] + fs[1..], k') == Lookup(fs, k')
  {
    assert fs == [fs[0]] + fs[1..];
    KeysCons((fs[0].0, v), fs[1..]);
    KeysCons(fs[0], fs[1..]);
    LookupCons((fs[0].0, v), fs[1..]);
    LookupCons(fs[0], fs[1..]);
  }

  /** The inductive step of `Assign` past a first entry with another key. */
  lemma KeepHead<V>(fs: seq<(string, V)>, k: string, v: V, t: seq<(string, V)>)
    requires fs != [] && fs[0].0 != k
    requires Keys(t) == if k in Keys(fs[1..]) then Keys(fs[1..]) else Keys(fs[1..]) + [k]
    requires Lookup(t, k) == Some(v)
    requires forall k' :: k' != k ==> Lookup(t, k') == Lookup(fs[1..], k')
    ensures Keys([fs[0]] + t) == if k in Keys(fs) then Keys(fs) else Keys(fs) + [k]
    ensures Lookup([fs[0]] + t, k) == Some(v)
    ensures forall k' :: k' != k ==> Lookup([fs[0]] + t, k') == Lookup(fs, k')
  {
    KeepHeadKeys(fs, k, t);
    assert fs == [fs[0]] + fs[1..];
    LookupCons(fs[0], t);
    LookupCons(fs[0], fs[1..]);
  }

  lemma KeepHeadKeys<V>(fs: seq<(string, V)>, k: string, t: seq<(string, V)>)
    requires fs != [] && fs[0].0 != k
    requires Keys(t) == if k in Keys(fs[1..]) then Keys(fs[1..]) else Keys(fs[1..]) + [k]
    ensures Keys([fs[0]] + t) == if k in Keys(fs) then Keys(fs) else Keys(fs) + [k]
  {
    var a, ks := fs[0].0, Keys(fs[1..]);
    assert fs == [fs[0]] + fs[1..];
    KeysCons(fs[0], t);
    KeysCons(fs[0], fs[1..]);
    assert k in Keys(fs) <==> k in ks;
    if k !in ks {
      assert [a] + (ks + [k]) == [a] + ks + [k];
    }
  }

  /** The list without any entry named `k`. */
  function RemoveKey<V>(fs: seq<(string, V)>, k: string): (r: seq<(string, V)>)
    ensures k !in Keys(r)
    ensures forall k' :: k' != k ==> Lookup(r, k') == Lookup(fs, k')
    ensures k !in Keys(fs) ==> r == fs
  {
    if fs == [] then []
    else
      KeysCons(fs[0], fs[1..]);
      LookupCons(fs[0], fs[1..]);
      if fs[0].0 == k then RemoveKey(fs[1..], k)
      else
        var t := RemoveKey(fs[1..], k);
        KeysCons(fs[0], t);
        LookupCons(fs[0], t);
        [fs[0]] + t
  }

  /** `URLSearchParams.prototype.set` (WHATWG URL Standard, section 6.2): the
      first pair named `k` takes the value `v` and every later pair named `k`
      is removed; with no such pair, `(k, v)` is appended. On a list whose
      names are distinct this is exactly a property write. */
  function SetParam<V>(fs: seq<(string, V)>, k: string, v: V): (r: seq<(string, V)>)
    ensures Lookup(r, k) == Some(v)
    ensures forall k' :: k' != k ==> Lookup(r, k') == Lookup(fs, k')
    ensures Distinct(Keys(fs)) ==> r == Assign(fs, k, v)
  {
    if fs == [] then [(k, v)]
    else if fs[0].0 == k then
      var rest := RemoveKey(fs[1..], k);
      SetAtHead(fs, k, v, rest);
      [(k, v)] + rest
    else
      var t := SetParam(fs[1..], k, v);
      SetPastHead(fs, k, v, t);
      [fs[0]] + t
  }

  /** The step of `SetParam` at the first pair named `k`. */
  lemma SetAtHead<V>(fs: seq<(string, V)>, k: string, v: V, rest: seq<(string, V)>)
    requires fs != [] && fs[0].0 == k
    requires forall k' :: k' != k ==> Lookup(rest, k') == Lookup(fs[1..], k')
    requires k !in Keys(fs[1..]) ==> rest == fs[1..]
    ensures Lookup([(k, v)] + rest, k) == Some(v)
    ensures forall k' :: k' != k ==> Lookup([(k, v)] + rest, k') == Lookup(fs, k')
    ensures Distinct(Keys(fs)) ==> [(k, v)] + rest == Assign(fs, k, v)
  {
    assert fs == [fs[0]] + fs[1..];
    KeysCons(fs[0], fs[1..]);
    LookupCons((k, v), rest);
    LookupCons(fs[0], fs[1..]);
    if Distinct(Keys(fs)) {
      DistinctTail(fs);
    }
  }

  /** The step of `SetParam` past a first pair with another name. */
  lemma SetPastHead<V>(fs: seq<(string, V)>, k: string, v: V, t: seq<(string, V)>)
    requires fs != [] && fs[0].0 != k
    requires Lookup(t, k) == Some(v)
    requires forall k' :: k' != k ==> Lookup(t, k') == Lookup(fs[1..], k')
    requires Distinct(Keys(fs[1..])) ==> t == Assign(fs[1..], k, v)
    ensures Lookup([fs[0]] + t, k) == Some(v)
    ensures forall k' :: k' != k ==> Lookup([fs[0]] + t, k') == Lookup(fs, k')
    ensures Distinct(Keys(fs)) ==> [fs[0]] + t == Assign(fs, k, v)
  {
    assert fs == [fs[0]] + fs[1..];
    KeysCons(fs[0], fs[1..]);
    LookupCons(fs[0], t);
    LookupCons(fs[0], fs[1..]);
    if Distinct(Keys(fs)) {
      DistinctTail(fs);
    }
  }

  /** The rest of a list with distinct keys has distinct keys, none of them
      the first key. */
  lemma DistinctTail<V>(fs: seq<(string, V)>)
    requires fs != [] && Distinct(Keys(fs))
    ensures Distinct(Keys(fs[1..]))
    ensures fs[0].0 !in Keys(fs[1..])
  {
    var ks, ts := Keys(fs), Keys(fs[1..]);
    forall i, j | 0 <= i < j < |ts|
      ensures ts[i] != ts[j]
    {
      assert ks[i + 1] == ts[i] && ks[j + 1] == ts[j];
    }
    forall j | 0 <= j < |ts|
      ensures ts[j] != fs[0].0
    {
      assert ks[0] == fs[0].0 && ks[j + 1] == ts[j];
    }
  }

  /** The keys of a list with one entry put in front. */
  lemma KeysCons<V>(e: (string, V), t: seq<(string, V)>)
    ensures Keys([e] + t) == [e.0] + Keys(t)
  {
  }

  /** Lookups in a list with one entry put in front. */
  lemma LookupCons<V>(e: (string, V), t: seq<(string, V)>)
    ensures forall k :: Lookup([e] + t, k) == if e.0 == k then Some(e.1) else Lookup(t, k)
  {
    assert ([e] + t)[1..] == t;
  }

  /** Each key of `ks` once, at the position of its first occurrence. */
  function FirstOccurrences(ks: seq<string>): (r: seq<string>)
    ensures Distinct(r)
    ensures forall k :: k in r <==> k in ks
  {
    if ks == [] then []
    else
      var r := FirstOccurrences(ks[..|ks| - 1]);
      var last := ks[|ks| - 1];
      assert ks == ks[..|ks| - 1] + [last];
      if last in r then r else r + [last]
  }

  /** Assigning to a key the value it already holds changes nothing. */
  lemma {:induction false} AssignSame<V>(fs: seq<(string, V)>, k: string, v: V)
    requires Distinct(Keys(fs))
    requires Lookup(fs, k) == Some(v)
    ensures Assign(fs, k, v) == fs
  {
    KeysCons(fs[0], fs[1..]);
    if fs[0].0 == k {
      assert fs[0] == (k, v);
      assert [(k, v)] + fs[1..] == fs;
    } else {
      DistinctTail(fs);
      assert Lookup(fs[1..], k) == Some(v);
      AssignSame(fs[1..], k, v);
      assert Assign(fs, k, v) == [fs[0]] + Assign(fs[1..], k, v);
      assert [fs[0]] + fs[1..] == fs;
    }
  }

  /** Assigning to a key the list does not hold appends the entry. */
  lemma {:induction false} AssignNew<V>(fs: seq<(string, V)>, k: string, v: V)
    requires k !in Keys(fs)
    ensures Assign(fs, k, v) == fs + [(k, v)]
  {
    if fs != [] {
      assert fs == [fs[0]] + fs[1..];
      KeysCons(fs[0], fs[1..]);
      AssignNew(fs[1..], k, v);
      assert Assign(fs, k, v) == [fs[0]] + Assign(fs[1..], k, v);
      ConsSnoc(fs, (k, v));
    }
  }

  lemma ConsSnoc<T>(s: seq<T>, e: T)
    requires s != []
    ensures [s[0]] + (s[1..] + [e]) == s + [e]
  {
  }
}

=== FILE: openapi.dfy ===
/** The translator from an OpenAPI document to the tool catalog
    (`generateToolsFromOpenAPI`, src/index.js:97-145): every GET operation
    that has an `operationId` becomes a tool with a JSON-schema input
    description, and a path-map entry recording how to call it. */
module OpenApi {
  import opened Wrappers
  import opened Text
  import opened Json
  import KeyedList

  // ---------------------------------------------------------------------------
  // The parsed OpenAPI document
  // ---------------------------------------------------------------------------

  /** A parameter's `schema` object; absent members are `None`. */
  datatype Schema = Schema(typeName: Option<string>, enumValues: Option<seq<Json>>, defaultValue: Option<Json>)

  /** A parameter object. `location` is its `in` member (`path`, `query`,
      or anything else); an absent `required` reads as false. */
  datatype Parameter = Parameter(
    name: string,
    location: string,
    description: Option<string>,
    required: bool,
    schema: Option<Schema>)

  datatype Operation = Operation(
    operationId: Option<string>,
    summary: Option<string>,
    description: Option<string>,
    parameters: Option<seq<Parameter>>)

  /** `spec.paths`: path templates, each with its operations keyed by HTTP
      method, both in `Object.entries` order. */
  type Paths = seq<(string, seq<(string, Operation)>)>

  /** One (path, method, operation) triple of the document. */
  datatype Endpoint = Endpoint(path: string, verb: string, op: Operation)

  // ---------------------------------------------------------------------------
  // The catalog
  // ---------------------------------------------------------------------------

  datatype PropertySchema = PropertySchema(
    typeName: string,
    description: Option<string>,
    enumValues: Option<seq<Json>>,
    defaultValue: Option<Json>)

  /** `{type: "object", properties, required}`; `required` is `None`
      (`undefined`) rather than an empty list when nothing is required. */
  datatype InputSchema = InputSchema(properties: seq<(string, PropertySchema)>, required: Option<seq<string>>)

  datatype Tool = Tool(name: string, description: string, inputSchema: InputSchema)

  /** A path-map entry: the path template and the parameters to fill it. */
  datatype PathInfo = PathInfo(path: string, parameters: seq<Parameter>)

  datatype Catalog = Catalog(tools: seq<Tool>, pathMap: map<string, PathInfo>)

  // ---------------------------------------------------------------------------
  // Translation
  // ---------------------------------------------------------------------------

  /** A truthy `operationId`: present and non-empty. */
  predicate HasId(op: Operation) {
    op.operationId.Some? && op.operationId.value != ""
  }

  /** The tool name of an operation (`""` when it has none). */
  function IdOf(op: Operation): string {
    op.operationId.GetOr("")
  }

  /** The read-only policy: an endpoint becomes a tool exactly when it is a
      `get` with a truthy `operationId`. */
  predicate Exposed(e: Endpoint) {
    HasId(e.op) && e.verb == "get"
  }

  function ParametersOf(op: Operation): seq<Parameter> {
    op.parameters.GetOr([])
  }

  /** The property describing one parameter: `schema.type || "string"`, with
      description, enum and default copied as they are. */
  function PropertyFor(p: Parameter): (r: PropertySchema)
    ensures r.typeName != ""
    ensures p.schema.Some? && p.schema.value.typeName.Some? && p.schema.value.typeName.value != "" ==>
      r.typeName == p.schema.value.typeName.value
    ensures !(p.schema.Some? && p.schema.value.typeName.Some? && p.schema.value.typeName.value != "") ==>
      r.typeName == "string"
    ensures r.description == p.description
    ensures r.enumValues == (if p.schema.Some? then p.schema.value.enumValues else None)
    ensures r.defaultValue == (if p.schema.Some? then p.schema.value.defaultValue else None)
  {
    var declared := if p.schema.Some? then p.schema.value.typeName else None;
    PropertySchema(
      if declared.Some? && declared.value != "" then declared.value else "string",
      p.description,
      if p.schema.Some? then p.schema.value.enumValues else None,
      if p.schema.Some? then p.schema.value.defaultValue else None)
  }

  /** The `properties` object after the first `|ps|` iterations of the
      parameter loop: `properties[param.name] = ...` for each. */
  function Properties(ps: seq<Parameter>): seq<(string, PropertySchema)> {
    if ps == [] then []
    else
      var last := ps[|ps| - 1];
      KeyedList.Assign(Properties(ps[..|ps| - 1]), last.name, PropertyFor(last))
  }

  /** The `required` array after the parameter loop: the name of every
      required parameter is pushed, in declaration order. */
  function RequiredNames(ps: seq<Parameter>): seq<string> {
    if ps == [] then []
    else
      var last := ps[|ps| - 1];
      RequiredNames(ps[..|ps| - 1]) + (if last.required then [last.name] else [])
  }

  function SchemaFor(op: Operation): InputSchema {
    var ps := ParametersOf(op);
    var req := RequiredNames(ps);
    InputSchema(Properties(ps), if |req| > 0 then Some(req) else None)
  }

  /** `${summary}. ${description || ""}`, trimmed; an absent summary
      interpolates as `undefined`. */
  function DescriptionFor(op: Operation): (r: string)
    ensures Unpadded(r)
  {
    Trim(op.summary.GetOr("undefined") + ". " + op.description.GetOr(""))
  }

  function ToolFor(op: Operation): Tool {
    Tool(IdOf(op), DescriptionFor(op), SchemaFor(op))
  }

  function InfoFor(e: Endpoint): PathInfo {
    PathInfo(e.path, ParametersOf(e.op))
  }

  /** One iteration of the inner loop. */
  function Step(c: Catalog, e: Endpoint): Catalog {
    if !HasId(e.op) then c
    else if e.verb != "get" then c
    else Catalog(c.tools + [ToolFor(e.op)], c.pathMap[IdOf(e.op) := InfoFor(e)])
  }

  function MethodEndpoints(path: string, methods: seq<(string, Operation)>): (es: seq<Endpoint>)
    ensures |es| == |methods|
    ensures forall i :: 0 <= i < |methods| ==> es[i] == Endpoint(path, methods[i].0, methods[i].1)
  {
    seq(|methods|, i requires 0 <= i < |methods| => Endpoint(path, methods[i].0, methods[i].1))
  }

  /** The triples in the order the nested `for ... of Object.entries` loops
      visit them: paths in order, and within a path its methods in order. */
  function Endpoints(paths: Paths): seq<Endpoint> {
    if paths == [] then [] else MethodEndpoints(paths[0].0, paths[0].1) + Endpoints(paths[1..])
  }

  /** The triples of a concatenation of path lists are those of the first
      list followed by those of the second. */
  lemma {:induction false} EndpointsAppend(a: Paths, b: Paths)
    ensures Endpoints(a + b) == Endpoints(a) + Endpoints(b)
  {
    if a == [] {
      assert a + b == b;
    } else {
      var head := MethodEndpoints(a[0].0, a[0].1);
      assert (a + b)[0] == a[0];
      assert (a + b)[1..] == a[1..] + b;
      calc {
        Endpoints(a + b);
        head + Endpoints(a[1..] + b);
        { EndpointsAppend(a[1..], b); }
        head + (Endpoints(a[1..]) + Endpoints(b));
        (head + Endpoints(a[1..])) + Endpoints(b);
      }
    }
  }

  /** The triples of one path are its (method, operation) entries in entry
      order, each with that path. */
  lemma EndpointsOfPath(path: string, methods: seq<(string, Operation)>)
    ensures var es := Endpoints([(path, methods)]);
      |es| == |methods| &&
      forall j :: 0 <= j < |methods| ==> es[j] == Endpoint(path, methods[j].0, methods[j].1)
  {
    var none: Paths := [];
    assert [(path, methods)][1..] == none;
    assert Endpoints(none) == [];
    assert Endpoints([(path, methods)]) == MethodEndpoints(path, methods) + Endpoints(none);
  }

  /** Entry `j` of path `i`, as a triple. */
  predicate EntryAt(paths: Paths, i: int, j: int, e: Endpoint) {
    0 <= i < |paths| && 0 <= j < |paths[i].1| && e == Endpoint(paths[i].0, paths[i].1[j].0, paths[i].1[j].1)
  }

  /** A triple is visited exactly when its path is a key of `paths` and its
      (method, operation) pair is an entry of that path. */
  lemma {:induction false} EndpointsMembers(paths: Paths)
    ensures forall e :: e in Endpoints(paths) <==> exists i, j :: EntryAt(paths, i, j, e)
  {
    if paths != [] {
      var rest := paths[1..];
      EndpointsMembers(rest);
      var head := MethodEndpoints(paths[0].0, paths[0].1);
      assert Endpoints(paths) == head + Endpoints(rest);
      forall e | e in Endpoints(paths) ensures exists i, j :: EntryAt(paths, i, j, e) {
        if e in head {
          var j :| 0 <= j < |head| && head[j] == e;
          assert EntryAt(paths, 0, j, e);
        } else {
          assert e in Endpoints(rest);
          var i, j :| EntryAt(rest, i, j, e);
          assert rest[i] == paths[i + 1];
          assert EntryAt(paths, i + 1, j, e);
        }
      }
      forall e | exists i, j :: EntryAt(paths, i, j, e) ensures e in Endpoints(paths) {
        var i, j :| EntryAt(paths, i, j, e);
        if i == 0 {
          assert head[j] == e;
        } else {
          assert paths[i] == rest[i - 1];
          assert EntryAt(rest, i - 1, j, e);
          assert e in Endpoints(rest);
        }
      }
    }
  }

  /** The catalog after visiting the triples `es` in order. */
  function Walk(es: seq<Endpoint>): Catalog {
    if es == [] then Catalog([], map[]) else Step(Walk(es[..|es| - 1]), es[|es| - 1])
  }

  /** `generateToolsFromOpenAPI(spec)`, returning `{tools, pathMap}`. */
  function Translate(paths: Paths): Catalog {
    Walk(Endpoints(paths))
  }

  // ---------------------------------------------------------------------------
  // Properties of the translation
  // ---------------------------------------------------------------------------

  /** The exposed triples, in document order. */
  function ExposedOnly(es: seq<Endpoint>): (r: seq<Endpoint>)
    ensures forall e :: e in r <==> e in es && Exposed(e)
  {
    if es == [] then []
    else
      var init := es[..|es| - 1];
      var last := es[|es| - 1];
      assert es == init + [last];
      ExposedOnly(init) + (if Exposed(last) then [last] else [])
  }

  /** The filter keeps document order: the exposed triples of two
      consecutive runs of triples are those of the first run followed by
      those of the second. */
  lemma {:induction false} ExposedOnlyAppend(a: seq<Endpoint>, b: seq<Endpoint>)
    ensures ExposedOnly(a + b) == ExposedOnly(a) + ExposedOnly(b)
    decreases |b|
  {
    if b == [] {
      assert a + b == a;
    } else {
      var init, last := b[..|b| - 1], b[|b| - 1];
      var tail := if Exposed(last) then [last] else [];
      ExposedOnlyAppend(a, init);
      assert (a + b)[..|a + b| - 1] == a + init;
      assert (a + b)[|a + b| - 1] == last;
      assert ExposedOnly(a + b) == ExposedOnly(a + init) + tail;
      assert ExposedOnly(b) == ExposedOnly(init) + tail;
    }
  }

  /** One triple is kept exactly when it is exposed. */
  lemma ExposedOnlyOne(e: Endpoint)
    ensures ExposedOnly([e]) == if Exposed(e) then [e] else []
  {
    assert [e][..0] == [];
  }

  /** The triple at `k` is exposed and no later exposed triple carries its
      `operationId`. */
  predicate LastExposed(es: seq<Endpoint>, k: int)
    requires 0 <= k < |es|
  {
    Exposed(es[k]) && forall k' :: k < k' < |es| && Exposed(es[k']) ==> IdOf(es[k'].op) != IdOf(es[k].op)
  }

  /** The tools are exactly the exposed triples' tools, one per triple, in
      document order; a repeated `operationId` yields a tool per triple. */
  lemma {:induction false} WalkTools(es: seq<Endpoint>)
    ensures var r := ExposedOnly(es);
      Walk(es).tools == seq(|r|, k requires 0 <= k < |r| => ToolFor(r[k].op))
  {
    if es != [] {
      var init := es[..|es| - 1];
      WalkTools(init);
    }
  }

  /** The path map alone: the map updates of the exposed triples, in order. */
  function PathMapOf(es: seq<Endpoint>): map<string, PathInfo> {
    if es == [] then map[]
    else
      var m := PathMapOf(es[..|es| - 1]);
      var last := es[|es| - 1];
      if Exposed(last) then m[IdOf(last.op) := InfoFor(last)] else m
  }

  /** The loop builds its path map independently of its tool list. */
  lemma {:induction false} WalkPathMap(es: seq<Endpoint>)
    ensures Walk(es).pathMap == PathMapOf(es)
  {
    if es != [] {
      WalkPathMap(es[..|es| - 1]);
    }
  }

  /** The path map has an entry exactly for the `operationId`s of exposed
      triples. */
  lemma {:induction false} PathMapKeys(es: seq<Endpoint>)
    ensures forall id :: id in PathMapOf(es) <==>
      exists k :: 0 <= k < |es| && Exposed(es[k]) && IdOf(es[k].op) == id
  {
    if es != [] {
      var init := es[..|es| - 1];
      var last := es[|es| - 1];
      PathMapKeys(init);
      var m0 := PathMapOf(init);
      var m := PathMapOf(es);
      forall id | id in m
        ensures exists k :: 0 <= k < |es| && Exposed(es[k]) && IdOf(es[k].op) == id
      {
        if Exposed(last) && id == IdOf(last.op) {
          assert es[|es| - 1] == last;
        } else {
          assert id in m0;
          var k :| 0 <= k < |init| && Exposed(init[k]) && IdOf(init[k].op) == id;
          assert es[k] == init[k];
        }
      }
      forall id, k | 0 <= k < |es| && Exposed(es[k]) && IdOf(es[k].op) == id
        ensures id in m
      {
        if k < |init| {
          assert init[k] == es[k];
          assert id in m0;
        }
      }
    }
  }

  /** The entry of an `operationId` is the one of the LAST exposed triple
      carrying it: that triple's path and parameters (or none). */
  lemma {:induction false} PathMapEntries(es: seq<Endpoint>)
    ensures forall k :: 0 <= k < |es| && LastExposed(es, k) ==>
      IdOf(es[k].op) in PathMapOf(es) && PathMapOf(es)[IdOf(es[k].op)] == InfoFor(es[k])
  {
    if es != [] {
      var init := es[..|es| - 1];
      PathMapEntries(init);
      forall k | 0 <= k < |init| && LastExposed(es, k)
        ensures IdOf(es[k].op) in PathMapOf(es) && PathMapOf(es)[IdOf(es[k].op)] == InfoFor(es[k])
      {
        LastExposedOfInit(es, k);
        assert es[k] == init[k];
      }
    }
  }

  lemma LastExposedOfInit(es: seq<Endpoint>, k: int)
    requires 0 <= k < |es| - 1 && LastExposed(es, k)
    ensures LastExposed(es[..|es| - 1], k)
    ensures Exposed(es[|es| - 1]) ==> IdOf(es[|es| - 1].op) != IdOf(es[k].op)
  {
    var init := es[..|es| - 1];
    forall k' | k < k' < |init| && Exposed(init[k'])
      ensures IdOf(init[k'].op) != IdOf(init[k].op)
    {
      assert init[k'] == es[k'];
    }
  }

  /** The catalog-filter property: tools exist exactly for the GET operations
      with a truthy `operationId`, in document order; path-map entries exist
      exactly for their ids, and a repeated id keeps its last triple. */
  lemma CatalogIsExposedTriples(paths: Paths)
    ensures var es := Endpoints(paths); var r := ExposedOnly(es); var c := Translate(paths);
      && c.tools == seq(|r|, k requires 0 <= k < |r| => ToolFor(r[k].op))
      && (forall id :: id in c.pathMap <==> exists k :: 0 <= k < |es| && Exposed(es[k]) && IdOf(es[k].op) == id)
      && (forall k :: 0 <= k < |es| && LastExposed(es, k) ==>
            IdOf(es[k].op) in c.pathMap && c.pathMap[IdOf(es[k].op)] == InfoFor(es[k]))
  {
    WalkTools(Endpoints(paths));
    WalkPathMap(Endpoints(paths));
    PathMapKeys(Endpoints(paths));
    PathMapEntries(Endpoints(paths));
  }

  /** Tool `k` is named after the `k`-th exposed triple. */
  lemma ToolNames(es: seq<Endpoint>)
    ensures var r := ExposedOnly(es);
      |Walk(es).tools| == |r| &&
      forall k :: 0 <= k < |r| ==> Walk(es).tools[k].name == IdOf(r[k].op)
  {
    WalkTools(es);
  }

  /** The read-only policy: every tool names a `get` operation of the
      document, and every tool has a path-map entry and vice versa. */
  lemma OnlyGetOperationsExposed(paths: Paths)
    ensures var c := Translate(paths);
      && (forall t :: t in c.tools ==>
            exists e :: e in Endpoints(paths) && e.verb == "get" && e.op.operationId == Some(t.name))
      && (forall t :: t in c.tools ==> t.name in c.pathMap)
      && (forall id :: id in c.pathMap ==> exists t :: t in c.tools && t.name == id)
  {
    ToolsFromExposed(Endpoints(paths));
    RoutesHaveTools(Endpoints(paths));
  }

  /** Every tool comes from an exposed `get` operation and has a route. */
  lemma ToolsFromExposed(es: seq<Endpoint>)
    ensures forall t :: t in Walk(es).tools ==>
      (exists e :: e in es && e.verb == "get" && e.op.operationId == Some(t.name)) && t.name in Walk(es).pathMap
  {
    var r := ExposedOnly(es);
    var tools := Walk(es).tools;
    ToolNames(es);
    WalkPathMap(es);
    PathMapKeys(es);
    forall t | t in tools
      ensures exists e :: e in es && e.verb == "get" && e.op.operationId == Some(t.name)
      ensures t.name in Walk(es).pathMap
    {
      var k :| 0 <= k < |tools| && tools[k] == t;
      assert r[k] in r;
      var j :| 0 <= j < |es| && es[j] == r[k];
      assert Exposed(es[j]) && IdOf(es[j].op) == t.name;
    }
  }

  /** Every route has a tool of the same name. */
  lemma RoutesHaveTools(es: seq<Endpoint>)
    ensures forall id :: id in Walk(es).pathMap ==> exists t :: t in Walk(es).tools && t.name == id
  {
    var r := ExposedOnly(es);
    var tools := Walk(es).tools;
    ToolNames(es);
    WalkPathMap(es);
    PathMapKeys(es);
    forall id | id in Walk(es).pathMap ensures exists t :: t in tools && t.name == id {
      var k :| 0 <= k < |es| && Exposed(es[k]) && IdOf(es[k].op) == id;
      assert es[k] in r;
      var j :| 0 <= j < |r| && r[j] == es[k];
      assert tools[j] in tools;
    }
  }


  // ---------------------------------------------------------------------------
  // Properties of the input schema
  // ---------------------------------------------------------------------------

  function Names(ps: seq<Parameter>): (ns: seq<string>)
    ensures |ns| == |ps| && forall i :: 0 <= i < |ps| ==> ns[i] == ps[i].name
  {
    seq(|ps|, i requires 0 <= i < |ps| => ps[i].name)
  }

  predicate LastWithName(ps: seq<Parameter>, i: int)
    requires 0 <= i < |ps|
  {
    forall j :: i < j < |ps| ==> ps[j].name != ps[i].name
  }

  /** Every declared name becomes one property, at the place of its first
      declaration. */
  lemma {:induction false} PropertiesKeys(ps: seq<Parameter>)
    ensures KeyedList.Keys(Properties(ps)) == KeyedList.FirstOccurrences(Names(ps))
  {
    if ps != [] {
      var init := ps[..|ps| - 1];
      PropertiesKeys(init);
      assert Names(ps)[..|ps| - 1] == Names(init);
    }
  }

  /** A repeated name keeps the property of its last declaration. */
  lemma PropertiesLastWins(ps: seq<Parameter>)
    ensures forall i :: 0 <= i < |ps| && LastWithName(ps, i) ==>
      KeyedList.Lookup(Properties(ps), ps[i].name) == Some(PropertyFor(ps[i]))
  {
    forall i | 0 <= i < |ps| && LastWithName(ps, i)
      ensures KeyedList.Lookup(Properties(ps), ps[i].name) == Some(PropertyFor(ps[i]))
    {
      PropertyOfLast(ps, i);
    }
  }

  /** The property of the last declaration of a name, by induction on the
      parameter loop. */
  lemma {:induction false} PropertyOfLast(ps: seq<Parameter>, i: int)
    requires 0 <= i < |ps| && LastWithName(ps, i)
    ensures KeyedList.Lookup(Properties(ps), ps[i].name) == Some(PropertyFor(ps[i]))
  {
    var init := ps[..|ps| - 1];
    if i == |ps| - 1 {
      assert Properties(ps) == KeyedList.Assign(Properties(init), ps[i].name, PropertyFor(ps[i]));
    } else {
      LastWithNameOfInit(ps, i);
      PropertyOfLast(init, i);
      PropertiesKeepsEarlier(ps, i);
    }
  }

  /** One more iteration of the parameter loop leaves the property of any
      other name as it was. */
  lemma PropertiesKeepsEarlier(ps: seq<Parameter>, i: int)
    requires 0 <= i < |ps| - 1 && ps[|ps| - 1].name != ps[i].name
    requires KeyedList.Lookup(Properties(ps[..|ps| - 1]), ps[..|ps| - 1][i].name) == Some(PropertyFor(ps[..|ps| - 1][i]))
    ensures KeyedList.Lookup(Properties(ps), ps[i].name) == Some(PropertyFor(ps[i]))
  {
    var init := ps[..|ps| - 1];
    var last := ps[|ps| - 1];
    assert init[i] == ps[i];
    assert Properties(ps) == KeyedList.Assign(Properties(init), last.name, PropertyFor(last));
  }

  lemma LastWithNameOfInit(ps: seq<Parameter>, i: int)
    requires 0 <= i < |ps| - 1 && LastWithName(ps, i)
    ensures LastWithName(ps[..|ps| - 1], i)
    ensures ps[|ps| - 1].name != ps[i].name
  {
    var init := ps[..|ps| - 1];
    forall j | i < j < |init| ensures init[j].name != init[i].name {
      assert init[j] == ps[j];
    }
  }

  /** The input schema's properties: one per declared name, in first
      declaration order, each the property of the name's last declaration. */
  lemma SchemaProperties(op: Operation)
    ensures var ps := ParametersOf(op); var props := SchemaFor(op).properties;
      && KeyedList.Keys(props) == KeyedList.FirstOccurrences(Names(ps))
      && (forall i :: 0 <= i < |ps| && LastWithName(ps, i) ==>
            KeyedList.Lookup(props, ps[i].name) == Some(PropertyFor(ps[i])))
  {
    PropertiesKeys(ParametersOf(op));
    PropertiesLastWins(ParametersOf(op));
  }

  /** A name is listed as required exactly when some parameter of that name
      is required, and the list is absent rather than empty when none is. */
  lemma {:induction false} SchemaRequired(op: Operation)
    ensures var ps := ParametersOf(op); var req := SchemaFor(op).required;
      && (req.None? <==> forall i :: 0 <= i < |ps| ==> !ps[i].required)
      && (req.Some? ==> |req.value| > 0)
      && (forall n :: (req.Some? && n in req.value) <==> exists i :: 0 <= i < |ps| && ps[i].required && ps[i].name == n)
  {
    var ps := ParametersOf(op);
    var names := RequiredNames(ps);
    RequiredMembers(ps);
    if names == [] {
      forall i | 0 <= i < |ps| ensures !ps[i].required {
        assert ps[i].name !in names;
      }
    } else {
      assert names[0] in names;
    }
  }

  lemma {:induction false} RequiredMembers(ps: seq<Parameter>)
    ensures forall n :: n in RequiredNames(ps) <==> exists i :: 0 <= i < |ps| && ps[i].required && ps[i].name == n
  {
    if ps != [] {
      var init := ps[..|ps| - 1];
      RequiredMembers(init);
      forall n | n in RequiredNames(ps) ensures exists i :: 0 <= i < |ps| && ps[i].required && ps[i].name == n {
        if n in RequiredNames(init) {
          var i :| 0 <= i < |init| && init[i].required && init[i].name == n;
          assert ps[i] == init[i];
        }
      }
      forall n | exists i :: 0 <= i < |ps| && ps[i].required && ps[i].name == n ensures n in RequiredNames(ps) {
        var i :| 0 <= i < |ps| && ps[i].required && ps[i].name == n;
        if i < |ps| - 1 {
          assert init[i] == ps[i];
        }
      }
    }
  }

  /** The required list keeps declaration order: the names required by a
      concatenation of parameter lists are those of the first list followed
      by those of the second. */
  lemma {:induction false} RequiredNamesAppend(a: seq<Parameter>, b: seq<Parameter>)
    ensures RequiredNames(a + b) == RequiredNames(a) + RequiredNames(b)
    decreases |b|
  {
    if b == [] {
      assert a + b == a;
    } else {
      var init := b[..|b| - 1];
      var last := b[|b| - 1];
      var tail := if last.required then [last.name] else [];
      RequiredNamesAppend(a, init);
      assert (a + b)[..|a + b| - 1] == a + init;
      assert (a + b)[|a + b| - 1] == last;
      assert RequiredNames(a + b) == RequiredNames(a + init) + tail;
      assert RequiredNames(b) == RequiredNames(init) + tail;
    }
  }

  /** One parameter contributes its name to the required list exactly when
      it is required. */
  lemma RequiredNamesOne(p: Parameter)
    ensures RequiredNames([p]) == if p.required then [p.name] else []
  {
    assert [p][..0] == [];
  }

  /** Two parameters declared under the same name: the properties keep one
      entry (the second declaration's), while `required` lists the name
      twice. */
  lemma DuplicateParameterName(p1: Parameter, p2: Parameter)
    requires p1.name == p2.name && p1.required && p2.required
    ensures Properties([p1, p2]) == [(p1.name, PropertyFor(p2))]
    ensures RequiredNames([p1, p2]) == [p1.name, p1.name]
  {
    var none: seq<Parameter> := [];
    var one := [(p1.name, PropertyFor(p1))];
    assert [p1, p2][..1] == [p1];
    assert [p1][..0] == none;
    assert Properties(none) == [];
    assert KeyedList.Assign([], p1.name, PropertyFor(p1)) == one;
    assert Properties([p1]) == one;
    assert KeyedList.Assign(one, p1.name, PropertyFor(p2)) == [(p1.name, PropertyFor(p2))] + one[1..];
    assert one[1..] == [];
    assert RequiredNames([p1]) == [p1.name];
  }

  /** With no description (absent or empty) the tool description is the
      summary followed by a full stop. */
  lemma DescriptionWithoutDetail(op: Operation)
    requires op.summary.Some? && (op.summary.value == [] || !IsJsSpace(op.summary.value[0]))
    requires op.description.GetOr("") == ""
    ensures DescriptionFor(op) == op.summary.value + "."
  {
    var s := op.summary.value;
    assert DescriptionFor(op) == Trim(s + ". " + "");
    TrimNoDetail(s);
  }

  /** With a summary and a description that carry no outer white space, the
      tool description is `summary. description` verbatim. */
  lemma DescriptionVerbatim(op: Operation)
    requires op.summary.Some? && (op.summary.value == [] || !IsJsSpace(op.summary.value[0]))
    requires op.description.Some? && op.description.value != ""
    requires !IsJsSpace(op.description.value[|op.description.value| - 1])
    ensures DescriptionFor(op) == op.summary.value + ". " + op.description.value
  {
    TrimVerbatim(op.summary.value, op.description.value);
  }

  lemma TrimNoDetail(s: string)
    requires s == [] || !IsJsSpace(s[0])
    ensures Trim(s + ". " + "") == s + "."
  {
    var core := s + ".";
    assert core[0] == if s == [] then '.' else s[0];
    assert Unpadded(core);
    assert AllSpace(" ");
    assert s + ". " + "" == "" + core + " ";
    TrimOfPadded("", core, " ");
  }

  lemma TrimVerbatim(s: string, d: string)
    requires s == [] || !IsJsSpace(s[0])
    requires d != [] && !IsJsSpace(d[|d| - 1])
    ensures Trim(s + ". " + d) == s + ". " + d
  {
    var core := s + ". " + d;
    assert core[|core| - 1] == d[|d| - 1];
    assert core[0] == if s == [] then '.' else s[0];
    assert Unpadded(core);
    assert "" + core + "" == core;
    TrimOfPadded("", core, "");
  }
}

=== FILE: render.dfy ===
/** The text rendering of API responses: number formatting chosen by field
    name, bullet lists for arrays and indented key-value text for objects.
    A `Failure` carries the message of the TypeError the JavaScript code
    throws (only reading `id` of a `null` array item throws). */
module Render {
  import opened Wrappers
  import opened Text
  import opened Json
  import KeyedList

  // ---------------------------------------------------------------------------
  // The field-name regular expressions
  // ---------------------------------------------------------------------------

  /** ASCII lower case. Under the `i` flag without `u`, a key character
      matches a lower-case ASCII pattern letter exactly when its ASCII lower
      case is that letter: case folding in that mode never maps a non-ASCII
      character to an ASCII one. */
  function LowerAscii(c: char): char {
    if 'A' <= c <= 'Z' then (c as int + 32) as char else c
  }

  /** The lower-case alternative `w` matches `key` at position `i`, ignoring
      case. */
  predicate MatchesAt(key: string, w: string, i: nat) {
    i + |w| <= |key| && forall j :: 0 <= j < |w| ==> LowerAscii(key[i + j]) == w[j]
  }

  /** One of the alternatives `words` matches at position `i`. */
  predicate AnyMatchesAt(words: seq<string>, key: string, i: nat) {
    exists w :: w in words && MatchesAt(key, w, i)
  }

  /** The search `RegExp.prototype.test` performs for an unanchored
      alternation: try every alternative at each start position, from `from`
      on, until one matches. */
  function Search(words: seq<string>, key: string, from: nat): (found: bool)
    ensures found <==> exists i :: from <= i <= |key| && AnyMatchesAt(words, key, i)
    decreases |key| - from
  {
    if from > |key| then false
    else if AnyMatchesAt(words, key, from) then true
    else Search(words, key, from + 1)
  }

  /** `/w1|w2|…/i.test(key)`. */
  predicate Test(words: seq<string>, key: string) {
    Search(words, key, 0)
  }

  /** Every word of `words` is found wherever it sits in a key and whatever
      the case of its ASCII letters. */
  lemma TestFindsInfix(words: seq<string>, w: string, a: string, m: string, b: string)
    requires w in words
    requires |m| == |w| && forall j :: 0 <= j < |m| ==> LowerAscii(m[j]) == w[j]
    ensures Test(words, a + m + b)
  {
    var key := a + m + b;
    forall j | 0 <= j < |w|
      ensures LowerAscii(key[|a| + j]) == w[j]
    {
      assert key[|a| + j] == m[j];
    }
    assert MatchesAt(key, w, |a|);
    assert AnyMatchesAt(words, key, |a|);
  }

  const CostWords: seq<string> := ["cost", "price", "amount"]
  const DurationWords: seq<string> := ["latency", "duration"]
  const RateWords: seq<string> := ["rate"]

  /** `SKIP_RE`, anchored at both ends and case-sensitive: it matches the key
      `projectId` and nothing else. */
  predicate Skipped(key: string) {
    key == "projectId"
  }

  // ---------------------------------------------------------------------------
  // fmtValue
  // ---------------------------------------------------------------------------

  /** The display value of field `key`: a number whose key names a cost, a
      duration or a rate is turned into text with a unit, a large plain
      number is grouped for the locale, anything else is left as it is. */
  function FmtValue(key: string, v: Json, nt: NumberText): (r: Json)
    ensures r.JNull? <==> v.JNull?
    ensures !v.JNum? ==> r == v
    ensures v.JNum? ==> r.JStr? || r == v
  {
    if v.JNull? then JNull
    else if Test(CostWords, key) && v.JNum? then JStr("$" + nt.fixed(v.n, 4))
    else if Test(DurationWords, key) && v.JNum? then JStr(nt.fixed(v.n, 0) + "ms")
    else if Test(RateWords, key) && v.JNum? then JStr(nt.show(v.n) + "%")
    else if v.JNum? && v.n > 9999.0 then JStr(nt.locale(v.n))
    else v
  }

  /** The unit styles of the field-name rules. */
  datatype NumberStyle = Currency | Millis | Percent

  /** The rule table, in priority order. */
  const Rules: seq<(seq<string>, NumberStyle)> :=
    [(CostWords, Currency), (DurationWords, Millis), (RateWords, Percent)]

  /** The style of the first rule whose words occur in `key`. */
  function StyleFor(rules: seq<(seq<string>, NumberStyle)>, key: string): Option<NumberStyle> {
    if rules == [] then None
    else if Test(rules[0].0, key) then Some(rules[0].1)
    else StyleFor(rules[1..], key)
  }

  /** A number written in a unit style. */
  function Styled(style: NumberStyle, n: real, nt: NumberText): string {
    match style
    case Currency => "$" + nt.fixed(n, 4)
    case Millis => nt.fixed(n, 0) + "ms"
    case Percent => nt.show(n) + "%"
  }

  /** A number is formatted by the first rule of the table that its key
      matches; with no matching rule it is grouped above 9999 and otherwise
      kept as a number. */
  lemma FmtValueByRules(key: string, n: real, nt: NumberText)
    ensures FmtValue(key, JNum(n), nt) ==
      match StyleFor(Rules, key)
      case Some(s) => JStr(Styled(s, n, nt))
      case None => if n > 9999.0 then JStr(nt.locale(n)) else JNum(n)
  {
    var r1, r2 := Rules[1..], Rules[1..][1..];
    assert r1 == [(DurationWords, Millis), (RateWords, Percent)];
    assert r2 == [(RateWords, Percent)];
    assert r2[1..] == [];
    if Test(CostWords, key) {
      assert StyleFor(Rules, key) == Some(Currency);
    } else if Test(DurationWords, key) {
      assert StyleFor(Rules, key) == Some(Millis);
    } else if Test(RateWords, key) {
      assert StyleFor(r1, key) == StyleFor(r2, key) == Some(Percent);
    } else {
      assert StyleFor(r2, key) == None;
    }
  }

  /** A key naming both a cost and a rate is formatted as a cost: the rule
      table's order decides. */
  lemma CostBeforeRate(n: real, nt: NumberText)
    ensures FmtValue("costRate", JNum(n), nt) == JStr("$" + nt.fixed(n, 4))
  {
    TestFindsInfix(CostWords, "cost", "", "cost", "Rate");
    assert "" + "cost" + "Rate" == "costRate";
  }

  // ---------------------------------------------------------------------------
  // formatArray
  // ---------------------------------------------------------------------------

  /** A bullet line. */
  function Bullet(text: string): string {
    "\U{2022} " + text
  }

  /** Whether a field of an object item contributes to its detail: not the
      `id`, not skipped, not null or the empty string, not an object or an
      array. */
  predicate KeptInItem(key: string, v: Json) {
    key != "id" && !Skipped(key) && !v.JNull? && v != JStr("") && !IsObjectTyped(v)
  }

  /** The detail part of one kept field. */
  function Part(key: string, v: Json, nt: NumberText): string {
    key + ": " + ToJsString(FmtValue(key, v, nt), nt)
  }

  /** The detail parts of an item's fields, in field order. */
  function ItemParts(fs: seq<(string, Json)>, nt: NumberText): seq<string> {
    if fs == [] then []
    else (if KeptInItem(fs[0].0, fs[0].1) then [Part(fs[0].0, fs[0].1, nt)] else []) + ItemParts(fs[1..], nt)
  }

  /** The parts of two field lists in a row are the parts of each, in
      order. */
  lemma {:induction false} ItemPartsAppend(a: seq<(string, Json)>, b: seq<(string, Json)>, nt: NumberText)
    ensures ItemParts(a + b, nt) == ItemParts(a, nt) + ItemParts(b, nt)
  {
    if a == [] {
      assert a + b == b;
    } else {
      assert (a + b)[0] == a[0];
      assert (a + b)[1..] == a[1..] + b;
      ItemPartsAppend(a[1..], b, nt);
      var h := if KeptInItem(a[0].0, a[0].1) then [Part(a[0].0, a[0].1, nt)] else [];
      assert h + (ItemParts(a[1..], nt) + ItemParts(b, nt)) == (h + ItemParts(a[1..], nt)) + ItemParts(b, nt);
    }
  }

  /** A field that is not kept can be removed without changing the detail. */
  lemma ItemPartsDrop(fs: seq<(string, Json)>, i: nat, nt: NumberText)
    requires i < |fs| && !KeptInItem(fs[i].0, fs[i].1)
    ensures ItemParts(fs[..i] + fs[i + 1..], nt) == ItemParts(fs, nt)
  {
    assert fs == fs[..i] + ([fs[i]] + fs[i + 1..]);
    ItemPartsAppend(fs[..i], [fs[i]] + fs[i + 1..], nt);
    ItemPartsAppend(fs[..i], fs[i + 1..], nt);
    assert ([fs[i]] + fs[i + 1..])[1..] == fs[i + 1..];
  }

  /** When every field is kept, there is one part per field, in order. */
  lemma {:induction false} ItemPartsAllKept(fs: seq<(string, Json)>, nt: NumberText)
    requires forall i :: 0 <= i < |fs| ==> KeptInItem(fs[i].0, fs[i].1)
    ensures |ItemParts(fs, nt)| == |fs|
    ensures forall i :: 0 <= i < |fs| ==> ItemParts(fs, nt)[i] == Part(fs[i].0, fs[i].1, nt)
  {
    if fs != [] {
      ItemPartsAllKept(fs[1..], nt);
      assert ItemParts(fs, nt) == [Part(fs[0].0, fs[0].1, nt)] + ItemParts(fs[1..], nt);
    }
  }

  /** The fields of an item that its detail shows, in field order. */
  function KeptFields(fs: seq<(string, Json)>): (ks: seq<(string, Json)>)
    ensures |ks| <= |fs|
    ensures forall e :: e in ks <==> e in fs && KeptInItem(e.0, e.1)
  {
    if fs == [] then []
    else
      assert fs == [fs[0]] + fs[1..];
      (if KeptInItem(fs[0].0, fs[0].1) then [fs[0]] else []) + KeptFields(fs[1..])
  }

  /** `key: value` for each of the fields `ks`. */
  function Parts(ks: seq<(string, Json)>, nt: NumberText): (ps: seq<string>)
    ensures |ps| == |ks|
  {
    seq(|ks|, i requires 0 <= i < |ks| => Part(ks[i].0, ks[i].1, nt))
  }

  lemma PartsAppend(a: seq<(string, Json)>, b: seq<(string, Json)>, nt: NumberText)
    ensures Parts(a + b, nt) == Parts(a, nt) + Parts(b, nt)
  {
    var l, r := Parts(a + b, nt), Parts(a, nt) + Parts(b, nt);
    forall i | 0 <= i < |l| ensures l[i] == r[i] {
      if i >= |a| {
        assert (a + b)[i] == b[i - |a|];
      }
    }
  }

  /** Filtering and formatting the fields in one pass is formatting the kept
      fields. */
  lemma {:induction false} ItemPartsOfKept(fs: seq<(string, Json)>, nt: NumberText)
    ensures ItemParts(fs, nt) == Parts(KeptFields(fs), nt)
  {
    if fs != [] {
      ItemPartsOfKept(fs[1..], nt);
      var h := if KeptInItem(fs[0].0, fs[0].1) then [fs[0]] else [];
      PartsAppend(h, KeptFields(fs[1..]), nt);
      assert Parts(h, nt) == if KeptInItem(fs[0].0, fs[0].1) then [Part(fs[0].0, fs[0].1, nt)] else [];
    }
  }

  /** The line of an object item: the bullet, the `id` and a dash when the
      `id` is truthy, then the kept fields joined by ` | `. */
  function ItemLine(item: Json, nt: NumberText): string
    requires !item.JNull?
  {
    var detail := Join(ItemParts(Entries(item), nt), " | ");
    var id := Get(item, "id");
    if id.Some? && Truthy(id.value) then Bullet(ToJsString(id.value, nt) + " \U{2014} " + detail)
    else Bullet(detail)
  }

  /** An item's line starts with its `id` and a dash exactly when the `id`
      is present and truthy; the rest is `key: value` for each kept field,
      in field order, separated by ` | `. */
  lemma ItemLineText(item: Json, nt: NumberText)
    requires !item.JNull?
    ensures var detail := Join(Parts(KeptFields(Entries(item)), nt), " | ");
      var id := Get(item, "id");
      ItemLine(item, nt) ==
        if id.Some? && Truthy(id.value) then Bullet(ToJsString(id.value, nt) + " \U{2014} " + detail)
        else Bullet(detail)
  {
    ItemPartsOfKept(Entries(item), nt);
  }

  /** The error `formatArray` throws at one item, if any. In object mode
      (the first item is object-typed) reading `id` of a `null` item throws,
      and so does interpolating a truthy `id` that does not convert; in
      primitive mode interpolating the item itself may throw. */
  function ItemFault(objectMode: bool, item: Json): Option<string> {
    if objectMode then
      if item.JNull? then Some(NullRead("id"))
      else
        var id := Get(item, "id");
        if id.Some? && Truthy(id.value) && !Convertible(id.value) then Some(CannotConvert) else None
    else if Convertible(item) then None
    else Some(CannotConvert)
  }

  /** No item of the array throws. */
  predicate NoFault(objectMode: bool, items: seq<Json>) {
    forall i :: 0 <= i < |items| ==> ItemFault(objectMode, items[i]).None?
  }

  /** Item `i` is the first that throws, and it throws `e`. */
  predicate FirstFaultAt(objectMode: bool, items: seq<Json>, i: int, e: string) {
    0 <= i < |items| && ItemFault(objectMode, items[i]) == Some(e) &&
    forall j :: 0 <= j < i ==> ItemFault(objectMode, items[j]).None?
  }

  /** The error of the first item that throws: `map` visits the items in
      order and stops there. */
  function FirstFault(objectMode: bool, items: seq<Json>): (r: Option<string>)
    ensures r.None? <==> NoFault(objectMode, items)
    ensures r.Some? ==> exists i :: FirstFaultAt(objectMode, items, i, r.value)
  {
    if items == [] then None
    else if ItemFault(objectMode, items[0]).Some? then
      assert FirstFaultAt(objectMode, items, 0, ItemFault(objectMode, items[0]).value);
      ItemFault(objectMode, items[0])
    else
      var r := FirstFault(objectMode, items[1..]);
      assert forall i :: 1 <= i < |items| ==> items[1..][i - 1] == items[i];
      if r.Some? then
        var i :| FirstFaultAt(objectMode, items[1..], i, r.value);
        assert FirstFaultAt(objectMode, items, i + 1, r.value);
        r
      else
        r
  }

  /** The lines of a non-empty array: primitive bullets when the first item
      is not object-typed, item lines otherwise. */
  function ArrayLines(items: seq<Json>, nt: NumberText): (lines: seq<string>)
    requires items != []
    requires NoFault(IsObjectTyped(items[0]), items)
  {
    if !IsObjectTyped(items[0]) then seq(|items|, i requires 0 <= i < |items| => Bullet(ToJsString(items[i], nt)))
    else seq(|items|, i requires 0 <= i < |items| => ItemLine(items[i], nt))
  }

  /** `formatArray(items)`: `No results.` for an empty array, otherwise one
      line per item, or the error of the first item that throws. */
  function FormatArray(items: seq<Json>, nt: NumberText): (r: Result<string, string>)
    ensures items == [] ==> r == Success("No results.")
    ensures r.Failure? <==> items != [] && exists i :: 0 <= i < |items| && ItemFault(IsObjectTyped(items[0]), items[i]).Some?
    ensures r.Failure? ==> exists i :: FirstFaultAt(IsObjectTyped(items[0]), items, i, r.error)
    ensures r.Failure? ==> r.error == NullRead("id") || r.error == CannotConvert
    ensures items != [] && IsObjectTyped(items[0]) && (exists i :: 0 <= i < |items| && items[i].JNull?) ==> r.Failure?
  {
    if items == [] then Success("No results.")
    else
      match FirstFault(IsObjectTyped(items[0]), items)
      case Some(e) => Failure(e)
      case None => Success(Join(ArrayLines(items, nt), "\n"))
  }

  /** An item whose object value has its own `toString` cannot be
      interpolated: `[1, {toString: 0}]` fails instead of rendering
      `• [object Object]`. */
  lemma UnconvertibleItemExample(nt: NumberText)
    ensures FormatArray([JNum(1.0), JObj([("toString", JNum(0.0))])], nt) == Failure(CannotConvert)
  {
    var items := [JNum(1.0), JObj([("toString", JNum(0.0))])];
    assert KeyedList.Lookup(items[1].fields, "toString").Some?;
    assert ItemFault(false, items[1]) == Some(CannotConvert);
  }

  /** Every line of a non-empty array's text is a bullet line, one per item;
      for primitive items the bullet carries the item's text, for object
      items it is the item's line. When no line
      has a line feed inside, splitting the text at line feeds gives back
      exactly these lines. */
  lemma ArrayText(items: seq<Json>, nt: NumberText)
    requires items != [] && FormatArray(items, nt).Success?
    ensures var lines := ArrayLines(items, nt);
      && |lines| == |items|
      && FormatArray(items, nt).value == Join(lines, "\n")
      && (forall i :: 0 <= i < |items| ==> |lines[i]| >= 2 && lines[i][..2] == "\U{2022} ")
      && (!IsObjectTyped(items[0]) ==> forall i :: 0 <= i < |items| ==> lines[i] == Bullet(ToJsString(items[i], nt)))
      && (IsObjectTyped(items[0]) ==> forall i :: 0 <= i < |items| ==> !items[i].JNull? && lines[i] == ItemLine(items[i], nt))
      && ((forall i :: 0 <= i < |items| ==> '\n' !in lines[i]) ==> Split(FormatArray(items, nt).value, '\n') == lines)
  {
    var lines := ArrayLines(items, nt);
    ArrayLinesAreBullets(items, nt);
    if forall i :: 0 <= i < |items| ==> '\n' !in lines[i] {
      SplitJoin(lines, '\n');
    }
  }

  /** Every line of a non-empty array starts with the bullet. */
  lemma ArrayLinesAreBullets(items: seq<Json>, nt: NumberText)
    requires items != []
    requires NoFault(IsObjectTyped(items[0]), items)
    ensures var lines := ArrayLines(items, nt);
      forall i :: 0 <= i < |items| ==> |lines[i]| >= 2 && lines[i][..2] == "\U{2022} "
  {
    var lines := ArrayLines(items, nt);
    forall i | 0 <= i < |items|
      ensures |lines[i]| >= 2 && lines[i][..2] == "\U{2022} "
    {
      if IsObjectTyped(items[0]) {
        var item := items[i];
        var id := Get(item, "id");
        var detail := Join(ItemParts(Entries(item), nt), " | ");
        if id.Some? && Truthy(id.value) {
          BulletPrefix(ToJsString(id.value, nt) + " \U{2014} " + detail);
        } else {
          BulletPrefix(detail);
        }
      } else {
        BulletPrefix(ToJsString(items[i], nt));
      }
    }
  }

  lemma BulletPrefix(t: string)
    ensures |Bullet(t)| >= 2 && Bullet(t)[..2] == "\U{2022} "
  {
  }

  /** The worked example: a one-item array `[{id: "x1", cost: 2.5, note:
      null}]` renders as the single line `• x1 — cost: $2.5000` when the
      runtime writes 2.5 to four decimals as `2.5000`. */
  lemma BulletExample(nt: NumberText)
    requires nt.fixed(2.5, 4) == "2.5000"
    ensures var item := JObj([("id", JStr("x1")), ("cost", JNum(2.5)), ("note", JNull)]);
      FormatArray([item], nt) == Success("\U{2022} x1 \U{2014} cost: $2.5000")
  {
    var item := JObj([("id", JStr("x1")), ("cost", JNum(2.5)), ("note", JNull)]);
    ExampleLine(nt);
    assert ArrayLines([item], nt) == [ItemLine(item, nt)];
  }

  lemma ExampleLine(nt: NumberText)
    requires nt.fixed(2.5, 4) == "2.5000"
    ensures ItemLine(JObj([("id", JStr("x1")), ("cost", JNum(2.5)), ("note", JNull)]), nt)
      == "\U{2022} x1 \U{2014} cost: $2.5000"
  {
    var fs := [("id", JStr("x1")), ("cost", JNum(2.5)), ("note", JNull)];
    ExampleParts(nt);
    assert KeyedList.Lookup(fs, "id") == Some(JStr("x1"));
    assert Join(["cost: $2.5000"], " | ") == "cost: $2.5000";
    ExampleLineText();
  }

  /** The line text of the example, kept apart so that the string fact is
      proved without the item in view. */
  lemma ExampleLineText()
    ensures Bullet("x1" + " \U{2014} " + "cost: $2.5000") == "\U{2022} x1 \U{2014} cost: $2.5000"
  {
  }

  lemma ExampleParts(nt: NumberText)
    requires nt.fixed(2.5, 4) == "2.5000"
    ensures ItemParts([("id", JStr("x1")), ("cost", JNum(2.5)), ("note", JNull)], nt) == ["cost: $2.5000"]
  {
    var fs := [("id", JStr("x1")), ("cost", JNum(2.5)), ("note", JNull)];
    ExamplePart(nt);
    assert fs[1..] == [("cost", JNum(2.5)), ("note", JNull)];
    assert fs[1..][1..] == [("note", JNull)];
    assert ItemParts(fs[1..][1..], nt) == [];
    assert ItemParts(fs[1..], nt) == ["cost: $2.5000"];
  }

  lemma ExamplePart(nt: NumberText)
    requires nt.fixed(2.5, 4) == "2.5000"
    ensures Part("cost", JNum(2.5), nt) == "cost: $2.5000"
  {
    TestFindsInfix(CostWords, "cost", "", "cost", "");
    assert "" + "cost" + "" == "cost";
    assert FmtValue("cost", JNum(2.5), nt) == JStr("$" + "2.5000");
    assert "$" + "2.5000" == "$2.5000";
    assert "cost" + ": " + "$2.5000" == "cost: $2.5000";
  }

  // ---------------------------------------------------------------------------
  // formatObject
  // ---------------------------------------------------------------------------

  /** `"  ".repeat(indent)`. */
  function Prefix(indent: nat): string {
    Repeat("  ", indent)
  }

  /** Two steps of line collection in a row: the first error thrown, or the
      lines of both. */
  function Then(x: Result<seq<string>, string>, y: Result<seq<string>, string>): Result<seq<string>, string> {
    match x
    case Failure(e) => Failure(e)
    case Success(a) =>
      match y
      case Failure(e) => Failure(e)
      case Success(b) => Success(a + b)
  }

  /** The lines one field pushes in `formatObject` at depth `indent`: none
      for a skipped key, a null value or an empty array; a header and the
      indented list for a non-empty array; a header and the nested text for
      an object; one `key: value` line otherwise. */
  function EntryLines(key: string, value: Json, indent: nat, nt: NumberText): Result<seq<string>, string>
    decreases value, 3, 0
  {
    var prefix := Prefix(indent);
    if Skipped(key) || value.JNull? then Success([])
    else if value.JArr? then
      if value.items == [] then Success([])
      else
        match FormatArray(value.items, nt)
        case Failure(e) => Failure(e)
        case Success(t) => Success([prefix + key + ":", Indent(t, prefix + "  ")])
    else if value.JObj? then
      match FormatObject(value, indent + 1, nt)
      case Failure(e) => Failure(e)
      case Success(t) => Success([prefix + key + ":", t])
    else Success([prefix + key + ": " + ToJsString(FmtValue(key, value, nt), nt)])
  }

  /** The lines of the fields of `obj` from position `i` on. */
  function ObjectLines(obj: Json, i: nat, indent: nat, nt: NumberText): Result<seq<string>, string>
    requires obj.JObj? && i <= |obj.fields|
    decreases obj, 1, |obj.fields| - i
  {
    if i == |obj.fields| then Success([])
    else Then(EntryLines(obj.fields[i].0, obj.fields[i].1, indent, nt), ObjectLines(obj, i + 1, indent, nt))
  }

  /** `formatObject(obj, indent)`: the lines of all fields joined by line
      feeds. */
  function FormatObject(obj: Json, indent: nat, nt: NumberText): Result<string, string>
    requires obj.JObj?
    decreases obj, 2, 0
  {
    match ObjectLines(obj, 0, indent, nt)
    case Failure(e) => Failure(e)
    case Success(lines) => Success(Join(lines, "\n"))
  }

  /** A field pushes no line exactly when its key is skipped, its value is
      null or its value is an empty array; otherwise its first line starts
      with the depth's prefix, the key and a colon. A non-empty array is
      followed by its list with the prefix and two spaces in front of every
      line; an object by its own text one level deeper; a scalar stays on
      the key's line. An error of the nested list or object is passed on. */
  lemma EntryLinesShape(key: string, value: Json, indent: nat, nt: NumberText)
    ensures EntryLines(key, value, indent, nt) == Success([]) <==>
      Skipped(key) || value.JNull? || value == JArr([])
    ensures var r := EntryLines(key, value, indent, nt);
      r.Success? && r.value != [] ==>
        var head := Prefix(indent) + key + ":";
        |head| <= |r.value[0]| && r.value[0][..|head|] == head
    ensures !Skipped(key) && value.JArr? && value.items != [] ==>
      var p := Prefix(indent);
      var a := FormatArray(value.items, nt);
      EntryLines(key, value, indent, nt) ==
        if a.Success? then Success([p + key + ":", p + "  " + AfterEachNewline(a.value, p + "  ")]) else Failure(a.error)
    ensures !Skipped(key) && value.JObj? ==>
      var o := FormatObject(value, indent + 1, nt);
      EntryLines(key, value, indent, nt) ==
        if o.Success? then Success([Prefix(indent) + key + ":", o.value]) else Failure(o.error)
    ensures !Skipped(key) && !IsObjectTyped(value) ==>
      EntryLines(key, value, indent, nt) == Success([Prefix(indent) + key + ": " + ToJsString(FmtValue(key, value, nt), nt)])
  {
    var head := Prefix(indent) + key + ":";
    if !Skipped(key) && value.JArr? && value.items != [] {
      var a := FormatArray(value.items, nt);
      if a.Success? {
        IndentInsertsPrefix(a.value, Prefix(indent) + "  ");
      }
    }
    if !(Skipped(key) || value.JNull? || value.JArr? || value.JObj?) {
      var line := head + " " + ToJsString(FmtValue(key, value, nt), nt);
      assert Prefix(indent) + key + ": " + ToJsString(FmtValue(key, value, nt), nt) == line;
      assert line[..|head|] == head;
    }
  }

  /** The lines from position `i` on are the lines of the fields from `i`
      on, wherever they sit. */
  lemma {:induction false} ObjectLinesSuffix(fs: seq<(string, Json)>, i: nat, indent: nat, nt: NumberText)
    requires i <= |fs|
    ensures ObjectLines(JObj(fs), i, indent, nt) == ObjectLines(JObj(fs[i..]), 0, indent, nt)
    decreases |fs| - i
  {
    if i < |fs| {
      ObjectLinesSuffix(fs, i + 1, indent, nt);
      ObjectLinesSuffix(fs[i..], 1, indent, nt);
      assert fs[i..][1..] == fs[i + 1..];
    }
  }

  /** `Then` is associative. */
  lemma ThenAssoc(x: Result<seq<string>, string>, y: Result<seq<string>, string>, z: Result<seq<string>, string>)
    ensures Then(Then(x, y), z) == Then(x, Then(y, z))
  {
    if x.Success? && y.Success? && z.Success? {
      assert x.value + y.value + z.value == x.value + (y.value + z.value);
    }
  }

  /** The lines of two field lists in a row are the lines of each, in order:
      every field contributes independently of its neighbours. */
  lemma {:induction false} ObjectLinesAppend(a: seq<(string, Json)>, b: seq<(string, Json)>, indent: nat, nt: NumberText)
    ensures ObjectLines(JObj(a + b), 0, indent, nt) ==
      Then(ObjectLines(JObj(a), 0, indent, nt), ObjectLines(JObj(b), 0, indent, nt))
  {
    if a == [] {
      assert a + b == b;
      var r := ObjectLines(JObj(b), 0, indent, nt);
      assert r.Success? ==> [] + r.value == r.value;
    } else {
      var ab := a + b;
      assert ab[0] == a[0];
      assert ab[1..] == a[1..] + b;
      ObjectLinesSuffix(ab, 1, indent, nt);
      ObjectLinesSuffix(a, 1, indent, nt);
      ObjectLinesAppend(a[1..], b, indent, nt);
      var e := EntryLines(a[0].0, a[0].1, indent, nt);
      ThenAssoc(e, ObjectLines(JObj(a[1..]), 0, indent, nt), ObjectLines(JObj(b), 0, indent, nt));
    }
  }

  /** A field that pushes no line can be removed without changing the
      text: skipped keys, null values and empty arrays leave no trace. */
  lemma ObjectIgnoresSilentField(a: seq<(string, Json)>, key: string, value: Json, b: seq<(string, Json)>, indent: nat, nt: NumberText)
    requires Skipped(key) || value.JNull? || value == JArr([])
    ensures FormatObject(JObj(a + [(key, value)] + b), indent, nt) == FormatObject(JObj(a + b), indent, nt)
  {
    EntryLinesShape(key, value, indent, nt);
    var one := [(key, value)];
    ObjectLinesAppend(a + one, b, indent, nt);
    ObjectLinesAppend(a, one, indent, nt);
    ObjectLinesAppend(a, b, indent, nt);
    assert ObjectLines(JObj(one), 1, indent, nt) == Success([]);
    var x := ObjectLines(JObj(a), 0, indent, nt);
    assert x.Success? ==> x.value + [] == x.value;
  }

  /** Unlike an array item, an object keeps a field whose value is the empty
      string: it pushes the line `key: ` with nothing after the colon. */
  lemma EmptyStringKeptInObject(key: string, indent: nat, nt: NumberText)
    requires !Skipped(key)
    ensures EntryLines(key, JStr(""), indent, nt) == Success([Prefix(indent) + key + ": "])
    ensures !KeptInItem(key, JStr(""))
  {
    assert Prefix(indent) + key + ": " + "" == Prefix(indent) + key + ": ";
  }

  /** The text of a non-empty object begins with its depth's prefix, and its
      first line holds a colon. */
  lemma {:induction false} ObjectTextHead(obj: Json, i: nat, indent: nat, nt: NumberText)
    requires obj.JObj? && i <= |obj.fields|
    ensures var r := ObjectLines(obj, i, indent, nt);
      r.Success? && r.value != [] ==>
        var p := Prefix(indent);
        |p| < |r.value[0]| && r.value[0][..|p|] == p && ':' in r.value[0]
    decreases |obj.fields| - i
  {
    var r := ObjectLines(obj, i, indent, nt);
    if i < |obj.fields| && r.Success? && r.value != [] {
      var (key, value) := obj.fields[i];
      var e := EntryLines(key, value, indent, nt);
      EntryLinesShape(key, value, indent, nt);
      if e.value == [] {
        ObjectTextHead(obj, i + 1, indent, nt);
        assert r.value == ObjectLines(obj, i + 1, indent, nt).value;
      } else {
        var p := Prefix(indent);
        var head := p + key + ":";
        assert r.value[0] == e.value[0];
        assert head[..|p|] == p && head[|head| - 1] == ':';
        assert r.value[0][..|p|] == head[..|head|][..|p|];
        assert r.value[0][|head| - 1] == ':';
      }
    }
  }

  // ---------------------------------------------------------------------------
  // formatResponse
  // ---------------------------------------------------------------------------

  /** `formatResponse(envelope)`: `No data.` without data, the bullet list
      of an array, and the key-value text of anything else (`Object.entries`
      of a string or a number). */
  function FormatResponse(envelope: Json, nt: NumberText): Result<string, string>
    requires !envelope.JNull?
  {
    var data := Get(envelope, "data");
    if data.None? || data.value.JNull? then Success("No data.")
    else if data.value.JArr? then FormatArray(data.value.items, nt)
    else FormatObject(JObj(Entries(data.value)), 0, nt)
  }

  /** The first part of a join is where its text begins. */
  lemma JoinStartsWithFirst(lines: seq<string>, sep: string)
    requires lines != []
    ensures |lines[0]| <= |Join(lines, sep)| && Join(lines, sep)[..|lines[0]|] == lines[0]
  {
    JoinCons(lines[0], lines[1..], sep);
    assert lines == [lines[0]] + lines[1..];
  }

  /** The text of an array is never `No data.`: it is `No results.` or
      starts with a bullet. */
  lemma ArrayTextIsNotNoData(items: seq<Json>, nt: NumberText)
    ensures FormatArray(items, nt) != Success("No data.")
  {
    var r := FormatArray(items, nt);
    if items != [] && r.Success? {
      var lines := ArrayLines(items, nt);
      ArrayLinesAreBullets(items, nt);
      JoinStartsWithFirst(lines, "\n");
      assert r.value[..2] == lines[0][..2] == "\U{2022} ";
      assert r.value[0] == '\U{2022}' != "No data."[0];
    }
  }

  /** The text of an object is never `No data.`: it is empty or its first
      line holds a colon. */
  lemma ObjectTextIsNotNoData(obj: Json, nt: NumberText)
    requires obj.JObj?
    ensures FormatObject(obj, 0, nt) != Success("No data.")
  {
    var r := ObjectLines(obj, 0, 0, nt);
    if r.Success? && r.value != [] {
      var lines := r.value;
      ObjectTextHead(obj, 0, 0, nt);
      JoinStartsWithFirst(lines, "\n");
      var t := Join(lines, "\n");
      var k :| 0 <= k < |lines[0]| && lines[0][k] == ':';
      assert t[k] == t[..|lines[0]|][k] == ':';
      assert ':' in t;
      assert ':' !in "No data.";
    }
  }

  /** The reply text is `No data.` exactly when the envelope has no data or
      null data. */
  lemma NoDataExactly(envelope: Json, nt: NumberText)
    requires !envelope.JNull?
    ensures var data := Get(envelope, "data");
      FormatResponse(envelope, nt) == Success("No data.") <==> data.None? || data.value.JNull?
  {
    var data := Get(envelope, "data");
    if data.Some? && !data.value.JNull? {
      if data.value.JArr? {
        ArrayTextIsNotNoData(data.value.items, nt);
      } else {
        ObjectTextIsNotNoData(JObj(Entries(data.value)), nt);
      }
    }
  }
}

=== FILE: text.dfy ===
/** The JavaScript string operations the server relies on, over `string`
    (a sequence of code points): `trim`, `replace` with a string pattern,
    `join`, `split` on one character, `repeat`, and number-to-decimal
    conversion of non-negative integers. */
module Text {
  import opened Wrappers

  // ---------------------------------------------------------------------------
  // String.prototype.trim
  // ---------------------------------------------------------------------------

  /** The code points `trim` removes: ECMAScript WhiteSpace (tab, vertical tab,
      form feed, space, no-break space, byte order mark and the Zs category)
      and LineTerminator (line feed, carriage return, U+2028, U+2029). */
  predicate IsJsSpace(c: char) {
    || c == '\t' || c == '\n' || c == '\U{000B}' || c == '\U{000C}' || c == '\r'
    || c == ' ' || c == '\U{00A0}' || c == '\U{1680}'
    || ('\U{2000}' <= c <= '\U{200A}')
    || c == '\U{2028}' || c == '\U{2029}' || c == '\U{202F}' || c == '\U{205F}'
    || c == '\U{3000}' || c == '\U{FEFF}'
  }

  predicate AllSpace(s: string) {
    forall i :: 0 <= i < |s| ==> IsJsSpace(s[i])
  }

  /** True when `s` neither starts nor ends with white space. */
  predicate Unpadded(s: string) {
    s == [] || (!IsJsSpace(s[0]) && !IsJsSpace(s[|s| - 1]))
  }

  /** The end of the run of white space in `s` that starts at `i`. */
  function SpaceFrom(s: string, i: nat): (k: nat)
    requires i <= |s|
    ensures i <= k <= |s|
    ensures forall j :: i <= j < k ==> IsJsSpace(s[j])
    ensures k == |s| || !IsJsSpace(s[k])
    decreases |s| - i
  {
    if i < |s| && IsJsSpace(s[i]) then SpaceFrom(s, i + 1) else i
  }

  /** The start of the run of white space in `s` that ends at `e`. */
  function SpaceUntil(s: string, e: nat): (k: nat)
    requires e <= |s|
    ensures k <= e
    ensures forall j :: k <= j < e ==> IsJsSpace(s[j])
    ensures k == 0 || !IsJsSpace(s[k - 1])
  {
    if e > 0 && IsJsSpace(s[e - 1]) then SpaceUntil(s, e - 1) else e
  }

  /** `s` without its leading white space. */
  function TrimStart(s: string): (r: string)
    ensures r == [] || !IsJsSpace(r[0])
  {
    s[SpaceFrom(s, 0)..]
  }

  /** `s` without its trailing white space. */
  function TrimEnd(s: string): (r: string)
    ensures r == [] || !IsJsSpace(r[|r| - 1])
  {
    s[..SpaceUntil(s, |s|)]
  }

  /** `s.trim()`. */
  function Trim(s: string): (r: string)
    ensures Unpadded(r)
  {
    var t := TrimStart(s);
    var r := TrimEnd(t);
    assert r != [] ==> r[0] == t[0];
    r
  }

  /** What `trim` returns is what remains of `s` once its white-space
      prefix and a white-space suffix are cut off: the text between the
      first character that is not white space and the position where only
      white space follows. */
  lemma TrimRemovesPadding(s: string)
    ensures var r := Trim(s); var k := SpaceFrom(s, 0);
      && k + |r| <= |s|
      && r == s[k..k + |r|]
      && (forall j :: 0 <= j < k ==> IsJsSpace(s[j]))
      && (forall j :: k + |r| <= j < |s| ==> IsJsSpace(s[j]))
  {
    var k := SpaceFrom(s, 0);
    var t := s[k..];
    var e := SpaceUntil(t, |t|);
    assert Trim(s) == t[..e];
    forall j | k + e <= j < |s|
      ensures IsJsSpace(s[j])
    {
      assert s[j] == t[j - k];
    }
  }

  /** A white-space prefix ends where the first character that is not white
      space begins. */
  lemma {:induction false} TrimStartOfPadded(lead: string, x: string)
    requires AllSpace(lead)
    requires x == [] || !IsJsSpace(x[0])
    ensures TrimStart(lead + x) == x
  {
    var s := lead + x;
    assert forall j :: 0 <= j < |lead| ==> s[j] == lead[j];
    assert x != [] ==> s[|lead|] == x[0];
    assert s[|lead|..] == x;
  }

  /** A white-space suffix starts after the last character that is not
      white space. */
  lemma {:induction false} TrimEndOfPadded(x: string, tail: string)
    requires AllSpace(tail)
    requires x == [] || !IsJsSpace(x[|x| - 1])
    ensures TrimEnd(x + tail) == x
  {
    var s := x + tail;
    assert forall j :: |x| <= j < |s| ==> s[j] == tail[j - |x|];
    assert x != [] ==> s[|x| - 1] == x[|x| - 1];
    assert s[..|x|] == x;
  }

  /** Trimming is determined by the decomposition: whatever white-space padding
      surrounds an unpadded core, `trim` returns exactly that core. */
  lemma TrimOfPadded(lead: string, core: string, tail: string)
    requires AllSpace(lead) && AllSpace(tail) && Unpadded(core)
    ensures Trim(lead + core + tail) == core
  {
    if core == [] {
      assert lead + core + tail == lead + tail;
      assert AllSpace(lead + tail) by {
        forall j | 0 <= j < |lead + tail|
          ensures IsJsSpace((lead + tail)[j])
        {
          if j >= |lead| {
            assert (lead + tail)[j] == tail[j - |lead|];
          }
        }
      }
      TrimStartOfPadded(lead + tail, []);
      assert lead + tail + [] == lead + tail;
    } else {
      assert lead + core + tail == lead + (core + tail);
      TrimStartOfPadded(lead, core + tail);
      TrimEndOfPadded(core, tail);
    }
  }

  // ---------------------------------------------------------------------------
  // String.prototype.indexOf and String.prototype.replace with a string pattern
  // ---------------------------------------------------------------------------

  predicate OccursAt(s: string, pat: string, i: int) {
    0 <= i && i + |pat| <= |s| && s[i..i + |pat|] == pat
  }

  /** The first position at or after `from` where `pat` occurs in `s`. */
  function IndexOfFrom(s: string, pat: string, from: nat): (r: Option<nat>)
    ensures r.Some? ==> from <= r.value && OccursAt(s, pat, r.value)
    ensures r.Some? ==> forall j :: from <= j < r.value ==> !OccursAt(s, pat, j)
    ensures r.None? ==> forall j :: from <= j ==> !OccursAt(s, pat, j)
    decreases |s| - from
  {
    if from + |pat| > |s| then None
    else if s[from..from + |pat|] == pat then Some(from)
    else IndexOfFrom(s, pat, from + 1)
  }

  /** `s.replace(pat, rep)` with a string `pat` and a replacement text free of
      `$` (so no substitution patterns apply): only the FIRST occurrence of
      `pat` is replaced, and `s` is unchanged when `pat` does not occur. */
  function ReplaceFirst(s: string, pat: string, rep: string): (r: string)
    requires '$' !in rep
    ensures (forall j :: !OccursAt(s, pat, j)) ==> r == s
    ensures forall i :: OccursAt(s, pat, i) && (forall j :: 0 <= j < i ==> !OccursAt(s, pat, j)) ==>
      r == s[..i] + rep + s[i + |pat|..]
  {
    match IndexOfFrom(s, pat, 0)
    case None => s
    case Some(i) => s[..i] + rep + s[i + |pat|..]
  }

  // ---------------------------------------------------------------------------
  // Array.prototype.join, String.prototype.split, String.prototype.repeat
  // ---------------------------------------------------------------------------

  /** `parts.join(sep)`. */
  function Join(parts: seq<string>, sep: string): string {
    if |parts| == 0 then ""
    else if |parts| == 1 then parts[0]
    else parts[0] + sep + Join(parts[1..], sep)
  }

  lemma JoinCons(x: string, ys: seq<string>, sep: string)
    ensures Join([x] + ys, sep) == if ys == [] then x else x + sep + Join(ys, sep)
  {
    assert ([x] + ys)[1..] == ys;
  }

  /** `s.split(sep)` for a one-character separator: the pieces between the
      separators, always at least one (`"".split(sep)` is `[""]`). */
  function Split(s: string, sep: char): (parts: seq<string>)
    ensures |parts| >= 1
    ensures forall i :: 0 <= i < |parts| ==> sep !in parts[i]
  {
    if s == [] then [""]
    else
      var rest := Split(s[1..], sep);
      if s[0] == sep then [""] + rest else [[s[0]] + rest[0]] + rest[1..]
  }

  /** Joining the pieces of a split with the same separator gives back the
      original string. */
  lemma {:induction false} JoinSplit(s: string, sep: char)
    ensures Join(Split(s, sep), [sep]) == s
  {
    if s != [] {
      var rest := Split(s[1..], sep);
      JoinSplit(s[1..], sep);
      if s[0] == sep {
        JoinCons("", rest, [sep]);
      } else {
        JoinCons([s[0]] + rest[0], rest[1..], [sep]);
        JoinCons(rest[0], rest[1..], [sep]);
        assert [rest[0]] + rest[1..] == rest;
      }
    }
  }

  lemma {:induction false} SplitPiece(p: string, sep: char, t: string)
    requires sep !in p
    ensures Split(p + t, sep) == [p + Split(t, sep)[0]] + Split(t, sep)[1..]
    decreases |p|
  {
    if p == [] {
      assert p + t == t;
      assert p + Split(t, sep)[0] == Split(t, sep)[0];
      assert [Split(t, sep)[0]] + Split(t, sep)[1..] == Split(t, sep);
    } else {
      assert (p + t)[0] == p[0] && (p + t)[1..] == p[1..] + t;
      assert p[0] != sep;
      SplitPiece(p[1..], sep, t);
      assert [p[0]] + (p[1..] + Split(t, sep)[0]) == p + Split(t, sep)[0];
    }
  }

  /** Splitting a join of separator-free pieces gives back the pieces. */
  lemma {:induction false} SplitJoin(parts: seq<string>, sep: char)
    requires |parts| >= 1
    requires forall i :: 0 <= i < |parts| ==> sep !in parts[i]
    ensures Split(Join(parts, [sep]), sep) == parts
  {
    if |parts| == 1 {
      SplitPiece(parts[0], sep, "");
      assert parts[0] + "" == parts[0];
    } else {
      SplitJoin(parts[1..], sep);
      var t := [sep] + Join(parts[1..], [sep]);
      assert Join(parts, [sep]) == parts[0] + t;
      SplitPiece(parts[0], sep, t);
      assert t[1..] == Join(parts[1..], [sep]);
      assert Split(t, sep) == [""] + parts[1..];
      assert parts[0] + "" == parts[0];
      assert parts == [parts[0]] + parts[1..];
    }
  }

  /** `s.repeat(n)`. */
  function Repeat(s: string, n: nat): (r: string)
    ensures |r| == n * |s|
    ensures forall i :: 0 <= i < |r| ==> r[i] in s
  {
    if n == 0 then "" else s + Repeat(s, n - 1)
  }

  // ---------------------------------------------------------------------------
  // Line indentation: `s.split("\n").map(l => p + l).join("\n")`
  // ---------------------------------------------------------------------------

  function PrefixLines(lines: seq<string>, p: string): (r: seq<string>)
    ensures |r| == |lines|
    ensures forall i :: 0 <= i < |lines| ==> r[i] == p + lines[i]
  {
    seq(|lines|, i requires 0 <= i < |lines| => p + lines[i])
  }

  /** Prefix every line of `s` with `p`. */
  function Indent(s: string, p: string): string {
    Join(PrefixLines(Split(s, '\n'), p), "\n")
  }

  /** Reference for `Indent`: copy `s`, inserting `p` after every line feed. */
  function AfterEachNewline(s: string, p: string): string {
    if s == [] then ""
    else if s[0] == '\n' then "\n" + p + AfterEachNewline(s[1..], p)
    else [s[0]] + AfterEachNewline(s[1..], p)
  }

  lemma PrefixLinesCons(x: string, ys: seq<string>, p: string)
    ensures PrefixLines([x] + ys, p) == [p + x] + PrefixLines(ys, p)
  {
    var l := PrefixLines([x] + ys, p);
    var r := [p + x] + PrefixLines(ys, p);
    assert |l| == |r|;
    forall i | 0 <= i < |l| ensures l[i] == r[i] {
      if i > 0 {
        assert ([x] + ys)[i] == ys[i - 1];
      }
    }
  }

  lemma IndentAtNewline(s: string, p: string)
    requires s != [] && s[0] == '\n'
    ensures Indent(s, p) == p + "\n" + Indent(s[1..], p)
  {
    var rest := Split(s[1..], '\n');
    PrefixLinesCons("", rest, p);
    assert p + "" == p;
    JoinCons(p, PrefixLines(rest, p), "\n");
  }

  /** The lines after the first, each prefixed and preceded by a line feed. */
  function LaterLines(lines: seq<string>, p: string): string {
    if lines == [] then "" else "\n" + Join(PrefixLines(lines, p), "\n")
  }

  lemma JoinPrefixed(lines: seq<string>, p: string)
    requires |lines| >= 1
    ensures Join(PrefixLines(lines, p), "\n") == p + lines[0] + LaterLines(lines[1..], p)
  {
    assert lines == [lines[0]] + lines[1..];
    PrefixLinesCons(lines[0], lines[1..], p);
    JoinCons(p + lines[0], PrefixLines(lines[1..], p), "\n");
  }

  lemma IndentAtOther(s: string, p: string)
    requires s != [] && s[0] != '\n'
    ensures |p| <= |Indent(s[1..], p)| && Indent(s[1..], p)[..|p|] == p
    ensures Indent(s, p) == p + [s[0]] + Indent(s[1..], p)[|p|..]
  {
    var rest := Split(s[1..], '\n');
    var lines := Split(s, '\n');
    var x := LaterLines(rest[1..], p);
    assert lines[0] == [s[0]] + rest[0] && lines[1..] == rest[1..];
    JoinPrefixed(rest, p);
    JoinPrefixed(lines, p);
    Regroup(p, s[0], rest[0], x);
  }

  lemma Regroup(p: string, c: char, a: string, x: string)
    ensures (p + a + x)[..|p|] == p && (p + a + x)[|p|..] == a + x
    ensures p + ([c] + a) + x == p + [c] + (a + x)
  {
  }

  /** Indenting is the same as putting `p` in front of the text and after every
      line feed in it: nothing else changes. */
  lemma {:induction false} IndentInsertsPrefix(s: string, p: string)
    ensures Indent(s, p) == p + AfterEachNewline(s, p)
  {
    if s == [] {
      assert Indent(s, p) == p + "";
    } else {
      var y := AfterEachNewline(s[1..], p);
      assert Indent(s[1..], p) == p + y by { IndentInsertsPrefix(s[1..], p); }
      if s[0] == '\n' {
        assert Indent(s, p) == p + "\n" + Indent(s[1..], p) by { IndentAtNewline(s, p); }
        assert AfterEachNewline(s, p) == "\n" + p + y;
      } else {
        assert Indent(s, p) == p + [s[0]] + Indent(s[1..], p)[|p|..] by { IndentAtOther(s, p); }
        assert (p + y)[|p|..] == y;
        assert AfterEachNewline(s, p) == [s[0]] + y;
      }
    }
  }


  // ---------------------------------------------------------------------------
  // Decimal text of a non-negative integer (`${n}` for an integral number)
  // ---------------------------------------------------------------------------

  predicate IsDigit(c: char) {
    '0' <= c <= '9'
  }

  predicate AllDigits(s: string) {
    forall i :: 0 <= i < |s| ==> IsDigit(s[i])
  }

  /** The value a string of decimal digits denotes. */
  function DigitsValue(s: string): nat
    requires AllDigits(s)
  {
    if s == [] then 0 else DigitsValue(s[..|s| - 1]) * 10 + (s[|s| - 1] as int - '0' as int)
  }

  /** Decimal digits of `n`: non-empty, no leading zero, denoting `n`. */
  function NatToString(n: nat): (r: string)
    ensures |r| >= 1 && AllDigits(r)
    ensures DigitsValue(r) == n
    ensures r[0] == '0' ==> r == "0"
  {
    var last := [('0' as int + n % 10) as char];
    if n < 10 then last
    else
      var r := NatToString(n / 10) + last;
      assert r[..|r| - 1] == NatToString(n / 10);
      r
  }
}

=== FILE: url_encoding.dfy ===
/** The two encoders the request builder uses, with reference decoders that
    show both are lossless:
    - `encodeURIComponent` (ECMA-262, section 19.2.6.5) for path values;
    - the application/x-www-form-urlencoded serializer that
      `URLSearchParams.prototype.toString` uses (WHATWG URL Standard,
      section 5.2) for the query string.
    Both percent-encode the UTF-8 bytes (RFC 3629) of every code point outside
    their keep-set with upper-case hexadecimal. */
module UrlEncoding {
  import opened Wrappers
  import opened Text

  type byte = b: int | 0 <= b < 256

  // ---------------------------------------------------------------------------
  // UTF-8
  // ---------------------------------------------------------------------------

  /** The UTF-8 encoding of one code point (RFC 3629, section 3). */
  function Utf8(c: char): (bs: seq<byte>)
    ensures 1 <= |bs| <= 4
    ensures |bs| == 1 <==> c as int < 0x80
    ensures |bs| == 1 ==> bs[0] == c as int
  {
    var n := c as int;
    if n < 0x80 then [n]
    else if n < 0x800 then [0xC0 + n / 64, 0x80 + n % 64]
    else if n < 0x10000 then [0xE0 + n / 4096, 0x80 + (n / 64) % 64, 0x80 + n % 64]
    else [0xF0 + n / 262144, 0x80 + (n / 4096) % 64, 0x80 + (n / 64) % 64, 0x80 + n % 64]
  }

  function Utf8Encode(s: string): seq<byte> {
    if s == [] then [] else Utf8(s[0]) + Utf8Encode(s[1..])
  }

  predicate IsContinuation(b: byte) {
    0x80 <= b < 0xC0
  }

  /** The code point a well-formed UTF-8 sequence starts with, and that
      sequence's length; `None` when the first sequence is ill-formed
      (RFC 3629, section 4: no overlong forms, no surrogates, nothing above
      U+10FFFF). */
  function DecodeFirst(bs: seq<byte>): (r: Option<(char, nat)>)
    requires |bs| > 0
    ensures r.Some? ==> 1 <= r.value.1 <= |bs|
  {
    var b0: int := bs[0];
    if b0 < 0x80 then Some((b0 as char, 1))
    else if 0xC2 <= b0 < 0xE0 && |bs| >= 2 && IsContinuation(bs[1]) then
      Some((((b0 - 0xC0) * 64 + (bs[1] as int - 0x80)) as char, 2))
    else if 0xE0 <= b0 < 0xF0 && |bs| >= 3 && IsContinuation(bs[1]) && IsContinuation(bs[2]) then
      var n := (b0 - 0xE0) * 4096 + (bs[1] as int - 0x80) * 64 + (bs[2] as int - 0x80);
      if 0x800 <= n && !(0xD800 <= n < 0xE000) then Some((n as char, 3)) else None
    else if 0xF0 <= b0 < 0xF5 && |bs| >= 4 && IsContinuation(bs[1]) && IsContinuation(bs[2]) && IsContinuation(bs[3]) then
      var n := (b0 - 0xF0) * 262144 + (bs[1] as int - 0x80) * 4096 + (bs[2] as int - 0x80) * 64 + (bs[3] as int - 0x80);
      if 0x10000 <= n < 0x110000 then Some((n as char, 4)) else None
    else None
  }

  /** Strict UTF-8 decoding: `None` on ill-formed input. */
  function Utf8Decode(bs: seq<byte>): Option<string>
    decreases |bs|
  {
    if bs == [] then Some([])
    else
      match DecodeFirst(bs)
      case None => None
      case Some(first) =>
        match Utf8Decode(bs[first.1..])
        case None => None
        case Some(rest) => Some([first.0] + rest)
  }

  lemma Utf8TwoBytes(n: int)
    requires 0x80 <= n < 0x800
    ensures 0xC2 <= 0xC0 + n / 64 < 0xE0
    ensures (n / 64) * 64 + n % 64 == n
  {
  }

  lemma Utf8ThreeBytes(n: int)
    requires 0x800 <= n < 0x10000
    ensures 0xE0 <= 0xE0 + n / 4096 < 0xF0
    ensures (n / 4096) * 4096 + ((n / 64) % 64) * 64 + n % 64 == n
  {
    var q := n / 64;
    assert n == q * 64 + n % 64;
    assert q == (q / 64) * 64 + q % 64;
    assert q / 64 == n / 4096;
  }

  lemma Utf8FourBytes(n: int)
    requires 0x10000 <= n < 0x110000
    ensures 0xF0 <= 0xF0 + n / 262144 < 0xF5
    ensures (n / 262144) * 262144 + ((n / 4096) % 64) * 4096 + ((n / 64) % 64) * 64 + n % 64 == n
  {
    var q := n / 64;
    var q2 := q / 64;
    assert n == q * 64 + n % 64;
    assert q == q2 * 64 + q % 64;
    assert q2 == (q2 / 64) * 64 + q2 % 64;
    assert q2 == n / 4096;
    assert q2 / 64 == n / 262144;
  }

  /** Decoding the encoding of a code point gives back that code point and
      consumes exactly its bytes. */
  lemma DecodeFirstOfUtf8(c: char, rest: seq<byte>)
    ensures DecodeFirst(Utf8(c) + rest) == Some((c, |Utf8(c)|))
  {
    var n := c as int;
    var bs := Utf8(c) + rest;
    if n < 0x80 {
    } else if n < 0x800 {
      Utf8TwoBytes(n);
      assert bs[0] == 0xC0 + n / 64 && bs[1] == 0x80 + n % 64;
    } else if n < 0x10000 {
      Utf8ThreeBytes(n);
      assert bs[0] == 0xE0 + n / 4096 && bs[1] == 0x80 + (n / 64) % 64 && bs[2] == 0x80 + n % 64;
    } else {
      Utf8FourBytes(n);
      assert bs[0] == 0xF0 + n / 262144 && bs[1] == 0x80 + (n / 4096) % 64;
      assert bs[2] == 0x80 + (n / 64) % 64 && bs[3] == 0x80 + n % 64;
    }
  }

  /** UTF-8 is lossless: decoding an encoded string gives it back. */
  lemma {:induction false} Utf8RoundTrip(s: string)
    ensures Utf8Decode(Utf8Encode(s)) == Some(s)
  {
    if s != [] {
      var bs := Utf8Encode(s);
      DecodeFirstOfUtf8(s[0], Utf8Encode(s[1..]));
      assert bs[|Utf8(s[0])|..] == Utf8Encode(s[1..]);
      Utf8RoundTrip(s[1..]);
      assert [s[0]] + s[1..] == s;
    }
  }

  // ---------------------------------------------------------------------------
  // Percent-encoding and percent-decoding
  // ---------------------------------------------------------------------------

  function HexDigit(d: int): char
    requires 0 <= d < 16
  {
    "0123456789ABCDEF"[d]
  }

  predicate IsHexDigit(c: char) {
    ('0' <= c <= '9') || ('A' <= c <= 'F') || ('a' <= c <= 'f')
  }

  function HexValue(c: char): (d: int)
    requires IsHexDigit(c)
    ensures 0 <= d < 16
  {
    if '0' <= c <= '9' then c as int - '0' as int
    else if 'A' <= c <= 'F' then c as int - 'A' as int + 10
    else c as int - 'a' as int + 10
  }

  lemma HexDigitValue(d: int)
    requires 0 <= d < 16
    ensures IsHexDigit(HexDigit(d)) && HexValue(HexDigit(d)) == d
  {
  }

  /** `%XX` for one byte, upper-case hexadecimal. */
  function PercentByte(b: byte): string {
    ['%', HexDigit(b / 16), HexDigit(b % 16)]
  }

  function PercentBytes(bs: seq<byte>): (r: string)
    ensures forall i :: 0 <= i < |r| ==> r[i] == '%' || IsAsciiAlphanumeric(r[i])
  {
    if bs == [] then "" else PercentByte(bs[0]) + PercentBytes(bs[1..])
  }

  predicate IsAsciiAlphanumeric(c: char) {
    ('0' <= c <= '9') || ('A' <= c <= 'Z') || ('a' <= c <= 'z')
  }

  /** The bytes a percent-encoded string stands for (WHATWG URL Standard,
      section 1.3, "percent-decode", applied to the UTF-8 bytes of `s`):
      `%XX` with two hexadecimal digits is one byte, any other code point its
      UTF-8 bytes. With `plusAsSpace`, `+` stands for a space, as in the
      application/x-www-form-urlencoded parser (section 5.1). */
  function PercentDecode(s: string, plusAsSpace: bool): seq<byte> {
    if s == [] then []
    else if s[0] == '%' && |s| >= 3 && IsHexDigit(s[1]) && IsHexDigit(s[2]) then
      [HexValue(s[1]) * 16 + HexValue(s[2])] + PercentDecode(s[3..], plusAsSpace)
    else if plusAsSpace && s[0] == '+' then [0x20] + PercentDecode(s[1..], plusAsSpace)
    else Utf8(s[0]) + PercentDecode(s[1..], plusAsSpace)
  }

  lemma ConsTail<T>(xs: seq<T>, ys: seq<T>)
    requires xs != []
    ensures [xs[0]] + (xs[1..] + ys) == xs + ys
  {
    assert [xs[0]] + xs[1..] == xs;
  }

  lemma PercentDecodeByte(b: byte, rest: string, plusAsSpace: bool)
    ensures PercentDecode(PercentByte(b) + rest, plusAsSpace) == [b] + PercentDecode(rest, plusAsSpace)
  {
    var s := PercentByte(b) + rest;
    assert s[0] == '%' && s[1] == HexDigit(b / 16) && s[2] == HexDigit(b % 16);
    HexDigitValue(b / 16);
    HexDigitValue(b % 16);
    assert HexValue(s[1]) * 16 + HexValue(s[2]) == b;
    assert s[3..] == rest;
  }

  lemma {:induction false} PercentDecodeBytes(bs: seq<byte>, rest: string, plusAsSpace: bool)
    ensures PercentDecode(PercentBytes(bs) + rest, plusAsSpace) == bs + PercentDecode(rest, plusAsSpace)
  {
    if bs == [] {
      assert PercentBytes(bs) + rest == rest;
    } else {
      var tail := PercentBytes(bs[1..]) + rest;
      var x := PercentDecode(rest, plusAsSpace);
      assert PercentDecode(PercentBytes(bs) + rest, plusAsSpace) == [bs[0]] + PercentDecode(tail, plusAsSpace) by {
        assert PercentBytes(bs) + rest == PercentByte(bs[0]) + tail;
        PercentDecodeByte(bs[0], tail, plusAsSpace);
      }
      assert PercentDecode(tail, plusAsSpace) == bs[1..] + x by {
        PercentDecodeBytes(bs[1..], rest, plusAsSpace);
      }
      ConsTail(bs, x);
    }
  }

  lemma PercentDecodeKept(c: char, rest: string, plusAsSpace: bool)
    requires c != '%' && (plusAsSpace ==> c != '+')
    ensures PercentDecode([c] + rest, plusAsSpace) == Utf8(c) + PercentDecode(rest, plusAsSpace)
  {
    assert ([c] + rest)[1..] == rest;
  }

  // ---------------------------------------------------------------------------
  // encodeURIComponent
  // ---------------------------------------------------------------------------

  /** ECMA-262's uriUnreserved: the code points `encodeURIComponent` leaves as
      they are. */
  predicate UriUnreserved(c: char) {
    IsAsciiAlphanumeric(c) || c in "-_.!~*'()"
  }

  /** `encodeURIComponent(s)`. A `string` here holds Unicode scalar values,
      never a lone surrogate, so the URIError thrown for one is outside this
      definition. The result consists of unreserved characters and `%`
      escapes only: it can hold no `/`, `?`, `#`, `&`, `{`, `}` or `$`. */
  function EncodeURIComponent(s: string): (r: string)
    ensures forall i :: 0 <= i < |r| ==> UriUnreserved(r[i]) || r[i] == '%'
    ensures (forall i :: 0 <= i < |s| ==> UriUnreserved(s[i])) ==> r == s
  {
    if s == [] then ""
    else
      var first := if UriUnreserved(s[0]) then [s[0]] else PercentBytes(Utf8(s[0]));
      var r := first + EncodeURIComponent(s[1..]);
      assert [s[0]] + s[1..] == s;
      r
  }

  /** Percent-decoding the output of `encodeURIComponent` yields exactly the
      UTF-8 bytes of its input. */
  lemma {:induction false} DecodeEncodeURIComponent(s: string)
    ensures PercentDecode(EncodeURIComponent(s), false) == Utf8Encode(s)
  {
    if s != [] {
      var rest := EncodeURIComponent(s[1..]);
      DecodeEncodeURIComponent(s[1..]);
      if UriUnreserved(s[0]) {
        PercentDecodeKept(s[0], rest, false);
      } else {
        PercentDecodeBytes(Utf8(s[0]), rest, false);
      }
    }
  }

  /** `encodeURIComponent` is lossless: decoding its output gives back the
      input, so a path value reaches the server intact. */
  lemma ComponentRoundTrip(s: string)
    ensures Utf8Decode(PercentDecode(EncodeURIComponent(s), false)) == Some(s)
  {
    DecodeEncodeURIComponent(s);
    Utf8RoundTrip(s);
  }

  // ---------------------------------------------------------------------------
  // application/x-www-form-urlencoded
  // ---------------------------------------------------------------------------

  /** The code points outside the application/x-www-form-urlencoded
      percent-encode set, which the serializer keeps as they are. */
  predicate FormUnreserved(c: char) {
    IsAsciiAlphanumeric(c) || c in "*-._"
  }

  /** The form-urlencoded byte serializer on one name or value: space becomes
      `+`, kept code points stay, every other byte is `%XX`. The result never
      holds `&` or `=`, the separators of the query string. */
  function FormEncode(s: string): (r: string)
    ensures forall i :: 0 <= i < |r| ==> FormUnreserved(r[i]) || r[i] == '%' || r[i] == '+'
  {
    if s == [] then ""
    else
      var first :=
        if s[0] == ' ' then "+"
        else if FormUnreserved(s[0]) then [s[0]]
        else PercentBytes(Utf8(s[0]));
      first + FormEncode(s[1..])
  }

  lemma {:induction false} DecodeFormEncode(s: string)
    ensures PercentDecode(FormEncode(s), true) == Utf8Encode(s)
  {
    if s != [] {
      var rest := FormEncode(s[1..]);
      DecodeFormEncode(s[1..]);
      if s[0] == ' ' {
        assert ("+" + rest)[1..] == rest;
      } else if FormUnreserved(s[0]) {
        PercentDecodeKept(s[0], rest, true);
      } else {
        PercentDecodeBytes(Utf8(s[0]), rest, true);
      }
    }
  }

  /** The form encoding of a name or value is lossless. */
  lemma FormRoundTrip(s: string)
    ensures Utf8Decode(PercentDecode(FormEncode(s), true)) == Some(s)
  {
    DecodeFormEncode(s);
    Utf8RoundTrip(s);
  }

  function FormDecode(s: string): Option<string> {
    Utf8Decode(PercentDecode(s, true))
  }

  // ---------------------------------------------------------------------------
  // Query strings
  // ---------------------------------------------------------------------------

  /** One `name=value` pair of the serialized query. */
  function QueryPair(p: (string, string)): string {
    FormEncode(p.0) + "=" + FormEncode(p.1)
  }

  /** `URLSearchParams.prototype.toString`: the pairs, form-encoded, in list
      order, joined with `&`. */
  function SerializeQuery(pairs: seq<(string, string)>): string {
    Join(seq(|pairs|, i requires 0 <= i < |pairs| => QueryPair(pairs[i])), "&")
  }

  /** The query string is empty exactly when there are no pairs (every pair
      contributes at least its `=`). */
  lemma SerializeQueryEmpty(pairs: seq<(string, string)>)
    ensures SerializeQuery(pairs) == "" <==> pairs == []
  {
    if pairs != [] {
      var parts := seq(|pairs|, i requires 0 <= i < |pairs| => QueryPair(pairs[i]));
      JoinCons(parts[0], parts[1..], "&");
      assert [parts[0]] + parts[1..] == parts;
      assert |QueryPair(pairs[0])| > 0;
    }
  }

  /** The application/x-www-form-urlencoded parser (WHATWG URL Standard,
      section 5.1) on the `&`-separated pieces of a query string: empty pieces
      are skipped, a piece splits at its first `=`, and both halves are
      form-decoded. `None` when a half is not valid UTF-8 once decoded. */
  function ParsePieces(pieces: seq<string>): Option<seq<(string, string)>> {
    if pieces == [] then Some([])
    else if pieces[0] == "" then ParsePieces(pieces[1..])
    else
      var halves := Split(pieces[0], '=');
      match (FormDecode(halves[0]), FormDecode(Join(halves[1..], "=")), ParsePieces(pieces[1..]))
      case (Some(name), Some(value), Some(rest)) => Some([(name, value)] + rest)
      case _ => None
  }

  function ParseQuery(q: string): Option<seq<(string, string)>> {
    ParsePieces(Split(q, '&'))
  }

  lemma ParseQueryPair(p: (string, string))
    ensures QueryPair(p) != ""
    ensures Split(QueryPair(p), '=') == [FormEncode(p.0), FormEncode(p.1)]
  {
    var a, b := FormEncode(p.0), FormEncode(p.1);
    assert '=' !in a && '=' !in b;
    JoinCons(a, [b], "=");
    SplitJoin([a, b], '=');
  }

  lemma {:induction false} ParsePiecesOfPairs(pairs: seq<(string, string)>)
    ensures ParsePieces(seq(|pairs|, i requires 0 <= i < |pairs| => QueryPair(pairs[i]))) == Some(pairs)
  {
    var parts := seq(|pairs|, i requires 0 <= i < |pairs| => QueryPair(pairs[i]));
    if pairs != [] {
      var rest := seq(|pairs[1..]|, i requires 0 <= i < |pairs[1..]| => QueryPair(pairs[1..][i]));
      assert parts == [QueryPair(pairs[0])] + rest;
      ParsePiecesOfPairs(pairs[1..]);
      ParseOnePiece(pairs[0], rest, pairs[1..]);
      assert [pairs[0]] + pairs[1..] == pairs;
    }
  }

  /** One serialized pair in front of pieces that parse. */
  lemma ParseOnePiece(pair: (string, string), rest: seq<string>, restPairs: seq<(string, string)>)
    requires ParsePieces(rest) == Some(restPairs)
    ensures ParsePieces([QueryPair(pair)] + rest) == Some([pair] + restPairs)
  {
    var piece := QueryPair(pair);
    ParseQueryPair(pair);
    FormRoundTrip(pair.0);
    FormRoundTrip(pair.1);
    var ps := [piece] + rest;
    assert ps[0] == piece && ps[1..] == rest;
    var halves := Split(piece, '=');
    assert halves[1..] == [FormEncode(pair.1)];
    assert Join(halves[1..], "=") == FormEncode(pair.1);
  }

  /** Parsing a serialized query gives back the name-value list, in order:
      the query string carries every argument intact. */
  lemma QueryRoundTrip(pairs: seq<(string, string)>)
    ensures ParseQuery(SerializeQuery(pairs)) == Some(pairs)
  {
    var parts := seq(|pairs|, i requires 0 <= i < |pairs| => QueryPair(pairs[i]));
    if pairs == [] {
      assert Split("", '&') == [""];
    } else {
      forall i | 0 <= i < |parts| ensures '&' !in parts[i] {
        assert forall k :: 0 <= k < |parts[i]| ==> parts[i][k] != '&';
      }
      SplitJoin(parts, '&');
    }
    ParsePiecesOfPairs(pairs);
  }
}

=== FILE: wrappers.dfy ===
/** Failure-compatible datatypes used across the model: `Option` for a JavaScript
    value that may be `undefined`, `Result` for an operation that may throw. */
module Wrappers {

  datatype Option<+T> = None | Some(value: T) {

    /** The wrapped value, or `default` when there is none (JavaScript's `x || d`
        for values whose only falsy form is absence). */
    function GetOr(default: T): T {
      match this
      case Some(v) => v
      case None => default
    }
  }

  /** The outcome of an operation that either returns a value or throws an
      error carrying a message. */
  datatype Result<+R, +E> = Success(value: R) | Failure(error: E)
}
